=== FILE: README.md ===
# Church service program editor — a Dafny model

The editor is a single-page browser tool for preparing a church service.
It holds one *program*: a name, a date, a list of songs and an order of
service. Each song is a PDF with instrumentalist notes. Each item in the
order of service has a title and an observation. The program lives in a
module-level object. The page also remembers the index of the song open
in the PDF viewer (`currentSongIndex`) and the name of the last imported
file (`currentFilename`). The editing handlers call `saveProgramData`
(`deleteSong` then adjusts the open index), which writes the whole
program to one local-storage slot unless it refuses or throws; import and
reset write the slot directly.

The model covers these handlers:

- start-up (`loadProgram`, `initializeDate`);
- the central `saveProgramData`;
- adding, opening, annotating and deleting songs;
- drag and drop in both lists;
- live editing of observations;
- export, import and reset.

Layout:

- `text.dfy` (module `Text`) holds the JavaScript string builtins the
  handlers rely on:
  - `trim`, using ECMAScript's whitespace set;
  - `indexOf`;
  - `replace` with a string pattern, which removes only the first
    occurrence;
  - `endsWith`.
- `splice.dfy` (module `Splice`) holds `Array.prototype.splice` as the
  editor uses it. Removing one element and inserting one make up the
  drag-and-drop move.
- `program.dfy` (module `ProgramModel`) is the specification:
  - the data model and the default values;
  - the file-name rules;
  - one function per handler. Each maps an `AppState` value, plus what
    the handler reads from the page, to an `Outcome` and the next state;
  - the lemmas stating what each handler does.
- `session.dfy` (module `Session`) is class `App`. Its fields are
  `programData`'s fields, `currentSongIndex`, `currentFilename` and the
  storage slot. Each handler is a method that updates those fields in
  place, as the script does. Every method's postcondition ties the new
  state and the outcome to the specification function of the same
  handler. The `forEach` over the order list in `saveProgramData` is the
  loop in `App.ReadObservations`.

What the page supplies becomes parameters:

- `Form` holds the name input, the date input, the observation textareas
  in display order, and the notes textarea.
- `confirm(...)` is a `bool`.
- "today" is a string.
- `JSON.parse` of an imported file is an `Option<ImportedProgram>`:
  `None` when parsing throws, or when the parsed value is `null`, whose
  `.programName` throws.

`saveProgramData` writes `songsList[currentSongIndex].notes`. When the
index is past the end of the list, that write throws a `TypeError`. The
model gives this its own outcome, `Crashed`. By then the name, date and
observations are already assigned. Storage is not written, and the
calling handler stops there.

## Model

| member | source | states |
|---|---|---|
| Text.Trim | script.js:66 | `trim` leaves no whitespace at either end, never lengthens, and gives "" exactly when the input is all whitespace |
| Text.TrimPadded | script.js:66 | trimming a whitespace-padded string with no whitespace at its ends gives back exactly that core |
| Text.TrimIdempotent | script.js:66 | trimming twice is trimming once |
| Text.TrimOfTrimmed | script.js:66 | a string with no whitespace at its ends is its own trim |
| Text.IndexOf | script.js:50 | `indexOf` is -1 exactly when the pattern does not occur; otherwise it is the first position where it occurs |
| Text.RemoveFirst | script.js:50 | `replace(pat, "")` leaves a string without `pat` unchanged, and otherwise cuts out exactly the first occurrence |
| Text.EndsWithAppended | script.js:271-273 | a string with a suffix appended ends with that suffix |
| Splice.RemoveAt | script.js:193 | `splice(i, 1)` drops element `i`, shifts the later ones down, and removes exactly one copy of it from the multiset |
| Splice.InsertAt | script.js:342 | `splice(i, 0, x)` puts `x` at `i`, shifts the later ones up, and adds exactly one copy of it |
| Splice.SpliceOut | script.js:193 | `splice(i, 1)` with `i` in range removes element `i`; at or past the end it leaves the list unchanged |
| Splice.MoveShape | script.js:341-342 | the drop move keeps the length, puts the moved element at `to`, and shifts exactly the elements between `from` and `to` by one |
| Splice.MoveTracks | script.js:341-342 | the element at `k` is found at `MovedIndex(k, from, to)` after the move |
| Splice.MovePermutes | script.js:364-365 | the move is a permutation |
| Splice.MoveKeepsOthersInOrder | script.js:341-342 | taking the moved element back out of the result gives the input with it taken out, so the others keep their order |
| Splice.MoveSame | script.js:339 | moving an element onto its own position changes nothing |
| Splice.MoveBack | script.js:341-342 | the move from `to` back to `from` undoes the move |
| ProgramModel.SongName | script.js:50 | a file name without ".pdf" is kept as it is; otherwise the name is four characters shorter |
| ProgramModel.SongNameDropsExtension | script.js:50 | a name ending in its only ".pdf" loses exactly that extension |
| ProgramModel.SongNameRemovesFirstOnly | script.js:50 | only the first ".pdf" goes, wherever it is: "hino.pdf.pdf" keeps one extension, "a.pdfx.pdf" becomes "ax.pdf" |
| ProgramModel.ImportFilename | script.js:271-273 | the remembered import name ends in ".json", starts with the file's name, equals it exactly when the file's name already ends in ".json", and is otherwise the file's name with exactly ".json" appended |
| ProgramModel.ImportFilenameIdempotent | script.js:271-273 | normalising an already normalised import name changes nothing |
| ProgramModel.ExportFilename | script.js:225-229 | the export name is never empty: it is the remembered file name if there is one, and otherwise "programa_culto.json", a ".json" name |
| ProgramModel.ExportFilenameIsJson | script.js:225-229 | whatever was imported, the export name ends in ".json" and an import keeps it unchanged |
| ProgramModel.StartUp | script.js:413-415 | after `loadProgram` and `initializeDate`, the program is the saved one with its date defaulted to today, or the defaults with today's date and the five default order items; nothing is open and no file name is set |
| ProgramModel.ObservationsFrom | script.js:84-92 | every item keeps its title; an item with a textarea gets that textarea's trimmed text; an item past the last textarea is unchanged |
| ProgramModel.SaveSpec | script.js:64-105 | a save always keeps the open index and the file name; a refused save changes nothing; a completed save stores exactly what the program then holds; a save that throws has rewritten the observations but left songs and storage alone |
| ProgramModel.SaveRejectsWithoutChange | script.js:64-77 | a save is refused exactly when the trimmed name or the date is empty, and a refused save leaves the state unchanged |
| ProgramModel.SaveCommits | script.js:64-105 | an accepted save stores the trimmed name, the date and the observations, changes no song except the open song's notes, and persists what it holds; it throws exactly when the open index is out of range |
| ProgramModel.SaveKeepsActiveInRange | script.js:94-100 | with the open index in range, a save never throws and keeps the index in range |
| ProgramModel.AddMusicAppends | script.js:48-57 | with the open index in range, adding a PDF appends exactly one song, with the derived name, the data and empty notes; earlier songs change only by the save's notes write |
| ProgramModel.AddMusicAdoptsDanglingIndex | script.js:48-57 | as written, with the open index one past the end, adding a PDF makes that index name the new song, and the save stores the notes textarea in it instead of empty notes |
| ProgramModel.DeleteThenAddMisfilesNotes | script.js:191-205 | songs [a, b] with b open: the delete of a throws and leaves the index at 1; adding a song then stores [b, the new song carrying the notes textarea's text] |
| ProgramModel.SaveNotesWritesActive | script.js:168-176 | with the open index in range, it gets the trimmed notes and no other song changes; storage is written only when the save succeeds |
| ProgramModel.SaveNotesWithDanglingIndexThrows | script.js:168-172 | as written, with the open index past the end of the list, saving notes throws on its first write and changes nothing |
| ProgramModel.AdjustAfterDelete | script.js:197-202 | deleting the open song clears the index, deleting an earlier song lowers it by one, deleting a later one keeps it |
| ProgramModel.AdjustAfterDeleteFollowsSong | script.js:197-202 | the adjusted index names the same song in the shortened list |
| ProgramModel.DeleteSongRemoves | script.js:191-205 | with nothing open, a confirmed delete removes exactly that entry, keeps the rest in order, and leaves nothing open |
| ProgramModel.DeleteSongAdjustsIndex | script.js:191-205 | when the save does not throw, the list is one shorter and the index ends up adjusted for the removal; a refused save still removes the song but does not persist the removal; a completed save changes no song of the shortened list except the one at the old open index, which gets the notes |
| ProgramModel.DeleteSongPastEnd | script.js:191-205 | deleting at an index past the end, as a list left stale by a throwing save offers, removes nothing; with the open index just past the end the save throws again and nothing is stored |
| ProgramModel.DeleteSongCancelled | script.js:192 | a cancelled delete changes nothing |
| ProgramModel.DeleteSongStaleNotes | script.js:193-194 | as written, with the open song at or after the deleted one and not last, the notes textarea is saved into the song that followed the open one |
| ProgramModel.DeleteSongLeavesDanglingIndex | script.js:193-202 | as written, deleting with the last song open throws in the save: the removal is not persisted and the index points past the end |
| ProgramModel.DeleteSongFixed | script.js:191-205 | with the index adjusted before the save, the index is adjusted, a delete never throws, and the index stays in range |
| ProgramModel.DeleteSongFixedWritesOpenSong | script.js:191-205 | with the fix, the notes go to the song that was open before the delete and to no other |
| ProgramModel.DropSameIndexChangesNothing | script.js:339 | dropping a song or an order item onto its own position changes nothing |
| ProgramModel.DropMusicMoves | script.js:333-346 | a song drop permutes the list, puts the song at `to`, keeps the others in order, leaves the index alone, and otherwise changes only the open song's notes; a refused or throwing save leaves exactly the moved list; with the open index in range it never throws and the index stays in range |
| ProgramModel.DropOrderMoves | script.js:354-368 | an order drop puts the dragged title at `to`, keeps the other titles in order, and the titles after the save are exactly the titles of the moved list; a refused save leaves the moved list as it is |
| ProgramModel.DropOrderLeavesObservationsBehind | script.js:364-367 | as written, with the textareas showing the observations, a completed drop moves the titles but leaves every observation at its old position |
| ProgramModel.ObservationsFollowMove | script.js:84-92 | reading moved textareas into a moved list is the same as reading them first and moving the result |
| ProgramModel.DropOrderFollowingCarriesObservations | script.js:354-368 | with the textareas read in the new order, a completed drop gives the observed list moved, so each observation stays with its title |
| ProgramModel.DropMusicLosesOpenSong | script.js:341-343 | as written, moving the open song leaves the index on the old position, and the notes are saved into the neighbour that slid there |
| ProgramModel.DropMusicFollowing | script.js:333-346 | with the index carried along, a drop onto itself changes nothing, and an index in range stays in range with no crash |
| ProgramModel.DropMusicFollowingKeepsOpenSong | script.js:333-346 | with the fix, the index still names the same song, and the notes go to that song only |
| ProgramModel.EditObservationWrites | script.js:400-403 | typing in an observation leaves the trimmed text in that item, keeps every title, and writes storage only on a completed save |
| ProgramModel.ExportChoosesFilename | script.js:220-243 | the export offers a file exactly when its save does not throw, always with the open index in range; the file is the program as it is after the save attempt, under the remembered name or "programa_culto.json", and a refused save exports the unsaved program; a throwing save offers nothing and leaves storage alone |
| ProgramModel.DeleteThenExportOffersNothing | script.js:191-243 | songs [a, b] with b open: the delete of a throws and leaves the index dangling, and the export that follows throws too, offering no file and leaving storage as it was before the delete |
| ProgramModel.Sanitize | script.js:253-262 | an empty name or date becomes the default name or today; a song list that is not an array becomes empty; an order list that is not an array becomes the default order |
| ProgramModel.ImportReplacesAll | script.js:249-290 | a parse failure changes nothing; a parsed file replaces the whole program with its sanitised fields, persists it, remembers a ".json" name and closes the viewer |
| ProgramModel.ImportDefaultsOrder | script.js:260-262 | a malformed order list falls back to the five default items and the imported songs are kept |
| ProgramModel.ExportImportRoundTrip | script.js:220-290 | importing the file from a successful export gives back the same program under the same file name |
| ProgramModel.ResetRestoresDefaults | script.js:296-322 | a confirmed reset restores the default name, today's date, no songs, the default order with empty observations, no file name, nothing open, and persists that; a cancelled one changes nothing |
| ProgramModel.SavingHandlersKeepFilename | script.js:20 | save, add, notes and export keep the remembered file name |
| ProgramModel.EditorsKeepFilename | script.js:20 | the drops, observation edits and deletes keep the remembered file name |
| ProgramModel.ImportAndResetSetFilename | script.js:271-273 | import and reset leave the file name empty or a ".json" name |
| ProgramModel.HandlersKeepActiveInRange | script.js:19 | add, notes, both drops, observation edits and export keep the open index in range |
| ProgramModel.ViewerHandlersKeepActiveInRange | script.js:207-217 | import, reset, opening a song and clearing the viewer keep the open index in range |
| ProgramModel.ScenarioAddReorderRemove | script.js:42-60 | from the defaults, adding "X.pdf", dropping it onto itself and deleting it leaves no songs and nothing open |
| Session.App.constructor | script.js:13-20 | the module-level declarations: default name, empty date and lists, nothing open, no file name |
| Session.App.LoadProgram | script.js:108-116 | the saved program replaces the whole object; without one, only the order list gets the defaults |
| Session.App.InitializeDate | script.js:23-31 | an empty date becomes today |
| Session.App.ReadObservations | script.js:84-92 | the loop leaves every observation that has a textarea set to that textarea's trimmed text and changes no other field |
| Session.App.SaveProgramData | script.js:64-105 | the new state and the outcome are those of `SaveSpec` |
| Session.App.AddMusic | script.js:48-57 | the new state and the outcome are those of `AddMusicSpec` |
| Session.App.ShowPdf | script.js:153-154 | `index` becomes the open index; it is in range when `index` is a position of the song list |
| Session.App.ClearPdfViewer | script.js:207-217 | nothing is open afterwards |
| Session.App.SaveNotes | script.js:168-176 | the new state and the outcome are those of `SaveNotesSpec` |
| Session.App.DeleteSong | script.js:191-205 | the new state and the outcome are those of `DeleteSongSpec`, which models the code as written, for any index |
| Session.App.DeleteSongAdjustingFirst | script.js:191-205 | the corrected delete: the state of `DeleteSongFixed`; never throws and keeps the index in range |
| Session.App.DropMusic | script.js:333-346 | the new state and the outcome are those of `DropMusicSpec` |
| Session.App.DropMusicFollowingOpenSong | script.js:333-346 | the corrected drop: the state of `DropMusicFollowing`; never throws and keeps the index in range |
| Session.App.DropOrder | script.js:354-368 | the new state and the outcome are those of `DropOrderSpec` |
| Session.App.DropOrderFollowingTextareas | script.js:354-368 | the corrected drop: the new state and the outcome are those of `DropOrderFollowing` |
| Session.App.UpdateObservation | script.js:400-403 | the new state and the outcome are those of `EditObservationSpec` |
| Session.App.ExportProgram | script.js:220-243 | the new state, the outcome and the offered download are those of `ExportSpec` |
| Session.App.ImportProgram | script.js:249-290 | the new state and the outcome are those of `ImportSpec` |
| Session.App.ResetProgram | script.js:296-322 | the new state and the outcome are those of `ResetSpec` |

## Left out

- Rendering is not modelled:
  - `updateMusicList`, `updateOrderList` and `updateCurrentDateDisplay`;
  - the viewer's title, iframe and notes-textarea writes in `showPdf` and `clearPdfViewer`;
  - the file-name label.
- `showNotification`, `alert` and `console.error` are not modelled. They
  only display. A refused save shows up as the outcome `RejectedName` or
  `RejectedDate`.
- `toggleFullScreen`, `allowDrop`, `dragMusic` and `dragOrder` are not
  modelled. The first only changes display; the others only pass an
  index through `dataTransfer`.
- `FileReader`'s asynchrony is not modelled. The `onload` bodies of
  `addMusic` and `importProgram` are single steps that take the file's
  name and contents as parameters. When no file is chosen, both handlers
  do nothing, so that case needs no model.
- JSON text is not modelled:
  - the storage slot holds the program value itself;
  - `loadProgram` assumes the slot holds what the editor wrote;
  - an import's `JSON.parse` result is a parameter;
  - the fields of `ImportedProgram` are typed. A truthy name or date that
    is not a string, and array elements that are not shaped like songs or
    order items, are outside the model. A `null` element makes
    `updateMusicList` or `updateOrderList` throw after the four fields of
    `programData` have been replaced; the `catch` then leaves
    `currentFilename`, the storage slot and the open index as they were,
    so such an import is half applied. That half-applied state is not
    modelled.
- `localStorage` errors (quota, disabled storage) are not modelled.
- The date handling is not modelled: `new Date().toISOString()` is the
  `today` parameter, and the locale formatting is display only.
- Session.App.DropMusic, Session.App.DropOrder,
  Session.App.DropMusicFollowingOpenSong and
  Session.App.DropOrderFollowingTextareas require both indices to be
  positions of their list. A drag started in one list and dropped on the
  other can carry an index past the end, and so can a list left on the
  page by a save that threw before it was drawn again. `splice` would
  then move `undefined` into the list. That case is not modelled.
- `showPdf` and `deleteSong` take any index. After a save throws inside
  `deleteSong`, `updateMusicList` is skipped, so the page still offers an
  entry at the old last position, one past the end of the list. The
  model covers that: `splice` removes nothing there (`SpliceOut`), and
  `showPdf` makes that index the open one, out of range. The song shown in
  the viewer is the stale entry's, which is rendering and not modelled.
- The notes textarea is assumed to be on the page. The check on
  `script.js` line 96 never fails in the page.

## Findings

| source | as written | input that shows it | evidently intended | confidence | as-written member | corrected member |
|---|---|---|---|---|---|---|
| script.js:193-202 | `deleteSong` saves, and writes the notes textarea into `songsList[currentSongIndex]`, before adjusting `currentSongIndex` | songs [A, B, C] with B open (index 1), delete A (index 0): the save writes B's notes into C | adjust the open index first, then save | high (proved; not executed) | ProgramModel.DeleteSongStaleNotes | ProgramModel.DeleteSongFixedWritesOpenSong |
| script.js:193-202 | with the last song open, the save inside `deleteSong` indexes past the end and throws, skipping the index fix-up | songs [A, B] with B open (index 1), delete A: `songsList[1]` is undefined, a `TypeError` is thrown, the removal is not stored and the index points past the end | the delete is stored and the index names B (index 0) | high (proved; not executed) | ProgramModel.DeleteSongLeavesDanglingIndex | ProgramModel.DeleteSongFixed |
| script.js:341-343 | `dropMusic` moves the songs but never updates `currentSongIndex` | songs [A, B] with A open (index 0), drag A onto index 1: the index still says 0, which is now B, and the save writes A's notes into B | carry the open index along with the moved songs | high (proved; not executed) | ProgramModel.DropMusicLosesOpenSong | ProgramModel.DropMusicFollowingKeepsOpenSong |
| script.js:364-367 | `dropOrder` saves before `updateOrderList`, so `saveProgramData` reads each textarea into the item now at that textarea's position | order [Hino (obs "a"), Oração (obs "b")] shown with textareas "a", "b"; drag Hino onto index 1: the list becomes [Oração (obs "a"), Hino (obs "b")] and is stored so | each observation stays with its item: [Oração (obs "b"), Hino (obs "a")] | high (proved; not executed) | ProgramModel.DropOrderLeavesObservationsBehind | ProgramModel.DropOrderFollowingCarriesObservations |

=== FILE: program.dfy ===
/** The editor's state and what each of its handlers does to it, as
    functions from the state before to the outcome and the state after.
    The class in `Session` performs the same steps in place. */
module ProgramModel {
  import opened Text
  import opened Splice

  datatype Option<T> = None | Some(value: T)

  /** A chord sheet: the name shown in the list, the PDF as a data URL, and
      the instrumentalists' notes. */
  datatype Song = Song(name: string, pdfData: string, notes: string)

  /** One step of the order of service and its free-text observation. */
  datatype OrderItem = OrderItem(title: string, observation: string)

  /** `programData`: what is saved, exported and imported. */
  datatype ProgramData = ProgramData(
    programName: string,
    programDate: string,
    songsList: seq<Song>,
    orderList: seq<OrderItem>)

  /** Everything the handlers read and write: the program, the index of the
      song open in the viewer (`null` is `None`), the name of the last
      imported file, and the one local-storage slot the program is saved in. */
  datatype AppState = AppState(
    data: ProgramData,
    currentSongIndex: Option<nat>,
    currentFilename: string,
    storage: Option<ProgramData>)

  /** What a save reads from the page: the name and date inputs, the
      observation textareas of the order list in display order, and the
      notes textarea under the viewer. */
  datatype Form = Form(
    nameInput: string,
    dateInput: string,
    orderTextareas: seq<string>,
    notesTextarea: string)

  /** How a handler ended. `Crashed` is the TypeError thrown when a notes
      write goes to `songsList[currentSongIndex]` past the end of the list. */
  datatype Outcome = Skipped | Saved | RejectedName | RejectedDate | Crashed | ParseFailed

  datatype Step = Step(outcome: Outcome, next: AppState)

  /** A parsed import file. A falsy `programName` or `programDate` (absent,
      null or empty) is `""`; a `songsList` or `orderList` that is not an
      array is `None`. */
  datatype ImportedProgram = ImportedProgram(
    programName: string,
    programDate: string,
    songsList: Option<seq<Song>>,
    orderList: Option<seq<OrderItem>>)

  /** The file an export hands to the browser. */
  datatype Download = Download(filename: string, content: ProgramData)

  const DefaultProgramName: string := "Programação do Culto"
  const DefaultExportFilename: string := "programa_culto.json"

  const DefaultOrder: seq<OrderItem> := [
    OrderItem("Abertura e Oração", ""),
    OrderItem("Louvor e Adoração", ""),
    OrderItem("Leitura Bíblica", ""),
    OrderItem("Mensagem", ""),
    OrderItem("Encerramento", "")
  ]

  // ---------------------------------------------------------------------
  // File names

  /** The list name of an added PDF: its file name with the first ".pdf"
      taken out, wherever it occurs. */
  function SongName(fileName: string): (r: string)
    ensures !Contains(fileName, ".pdf") ==> r == fileName
    ensures Contains(fileName, ".pdf") ==> |r| == |fileName| - 4
  {
    RemoveFirst(fileName, ".pdf")
  }

  /** A file name ending in ".pdf", with no other ".pdf" in it, loses exactly
      that extension. */
  lemma SongNameDropsExtension(base: string)
    requires !Contains(base, ".pdf")
    ensures SongName(base + ".pdf") == base
  {
    var s := base + ".pdf";
    var n := |base|;
    assert OccursAt(s, ".pdf", n);
    forall k: nat | k < n ensures !OccursAt(s, ".pdf", k) {
      if k + 4 <= n {
        assert s[k..k + 4] == base[k..k + 4];
        assert !OccursAt(base, ".pdf", k);
      } else {
        // a match straddling the join would need the '.' of the extension
        // where ".pdf" has 'p', 'd' or 'f'
        assert s[k..k + 4][n - k] == s[n] == '.';
        assert ".pdf"[n - k] != '.';
      }
    }
    SongNameAt(s, n);
    assert s[..n] + s[n + 4..] == base;
  }

  /** The name is the file name with the first ".pdf" cut out. */
  lemma SongNameAt(fileName: string, i: nat)
    requires OccursAt(fileName, ".pdf", i)
    requires forall k: nat :: k < i ==> !OccursAt(fileName, ".pdf", k)
    ensures SongName(fileName) == fileName[..i] + fileName[i + 4..]
  {
    assert IndexOf(fileName, ".pdf") == i;
  }

  lemma NoPdfWithoutDot(s: string, k: nat)
    requires k < |s| && s[k] != '.'
    ensures !OccursAt(s, ".pdf", k)
  {
    if k + 4 <= |s| {
      assert s[k..k + 4][0] == s[k];
    }
  }

  /** Only the first ".pdf" is removed, whatever follows it: "hino.pdf.pdf"
      keeps one extension and "a.pdfx.pdf" becomes "ax.pdf". */
  lemma SongNameRemovesFirstOnly(base: string, rest: string)
    requires '.' !in base
    ensures SongName(base + ".pdf" + rest) == base + rest
  {
    var s := base + ".pdf" + rest;
    var n := |base|;
    assert OccursAt(s, ".pdf", n) by { assert s[n..n + 4] == ".pdf"; }
    forall k: nat | k < n ensures !OccursAt(s, ".pdf", k) {
      assert s[k] == base[k] && base[k] in base;
      NoPdfWithoutDot(s, k);
    }
    SongNameAt(s, n);
    assert s[..n] == base;
    assert s[n + 4..] == rest;
  }

  /** The name kept for an imported file: it ends in ".json", it starts with
      the file's own name, and it is that name unchanged exactly when the
      name already ends in ".json". */
  function ImportFilename(fileName: string): (r: string)
    ensures EndsWith(r, ".json")
    ensures |fileName| <= |r| && r[..|fileName|] == fileName
    ensures r == fileName <==> EndsWith(fileName, ".json")
    ensures !EndsWith(fileName, ".json") ==> |r| == |fileName| + 5
  {
    if EndsWith(fileName, ".json") then fileName
    else
      EndsWithAppended(fileName, ".json");
      fileName + ".json"
  }

  lemma ImportFilenameIdempotent(fileName: string)
    ensures ImportFilename(ImportFilename(fileName)) == ImportFilename(fileName)
  {
  }

  /** The name an export is offered under: the last imported file's, or the
      fixed default when nothing was imported. */
  function ExportFilename(currentFilename: string): (r: string)
    ensures r != []
    ensures currentFilename != [] ==> r == currentFilename
    ensures currentFilename == [] ==> r == DefaultExportFilename && EndsWith(r, ".json")
  {
    if currentFilename != [] then currentFilename else DefaultExportFilename
  }

  /** Whatever was imported, an export goes out under a ".json" name that an
      import keeps as it is. */
  lemma ExportFilenameIsJson(s: AppState)
    requires FilenameOk(s)
    ensures EndsWith(ExportFilename(s.currentFilename), ".json")
    ensures ImportFilename(ExportFilename(s.currentFilename)) == ExportFilename(s.currentFilename)
  {
  }

  // ---------------------------------------------------------------------
  // Invariants

  /** The open song, if any, is a position of the song list. */
  predicate ActiveInRange(s: AppState) {
    s.currentSongIndex.None? || s.currentSongIndex.value < |s.data.songsList|
  }

  /** The remembered file name is empty or a ".json" name. */
  predicate FilenameOk(s: AppState) {
    s.currentFilename == [] || EndsWith(s.currentFilename, ".json")
  }

  /** `after` is `before` except that the song at `at`, if any, has the
      trimmed notes `text`. */
  predicate NotesOnlyAt(before: seq<Song>, after: seq<Song>, at: Option<nat>, text: string) {
    |after| == |before|
    && forall k :: 0 <= k < |before| ==>
        after[k] == if at == Some(k) then before[k].(notes := Trim(text)) else before[k]
  }

  // ---------------------------------------------------------------------
  // Start-up

  /** The module-level declarations, with whatever the storage slot holds. */
  function Boot(saved: Option<ProgramData>): AppState {
    AppState(ProgramData(DefaultProgramName, "", [], []), None, "", saved)
  }

  /** `loadProgram`: the saved program replaces the whole object; without
      one, only the order list is seeded with the defaults. */
  function LoadProgramSpec(s: AppState): AppState {
    match s.storage
    case Some(d) => s.(data := d)
    case None => s.(data := s.data.(orderList := DefaultOrder))
  }

  /** `initializeDate`: an empty date becomes today's. */
  function InitializeDateSpec(s: AppState, today: string): AppState {
    if s.data.programDate == [] then s.(data := s.data.(programDate := today)) else s
  }

  /** After loading: the saved program with its date defaulted, or the
      defaults with today's date; no song open, no file name. */
  lemma StartUp(saved: Option<ProgramData>, today: string)
    ensures var s := InitializeDateSpec(LoadProgramSpec(Boot(saved)), today);
      s.currentSongIndex == None && s.currentFilename == [] && s.storage == saved
    ensures var s := InitializeDateSpec(LoadProgramSpec(Boot(saved)), today);
      ActiveInRange(s) && FilenameOk(s)
    ensures saved.None? ==>
      InitializeDateSpec(LoadProgramSpec(Boot(saved)), today).data
      == ProgramData(DefaultProgramName, today, [], DefaultOrder)
    ensures saved.Some? ==>
      var d := InitializeDateSpec(LoadProgramSpec(Boot(saved)), today).data;
      d.programName == saved.value.programName
      && d.songsList == saved.value.songsList
      && d.orderList == saved.value.orderList
      && d.programDate == (if saved.value.programDate == [] then today else saved.value.programDate)
  {
  }

  // ---------------------------------------------------------------------
  // Saving

  /** The order list with each observation that has a textarea on the page
      replaced by that textarea's trimmed text. */
  function ObservationsFrom(items: seq<OrderItem>, texts: seq<string>): (r: seq<OrderItem>)
    ensures |r| == |items|
    ensures forall k :: 0 <= k < |r| ==> r[k].title == items[k].title
    ensures forall k :: 0 <= k < |r| && k < |texts| ==> r[k].observation == Trim(texts[k])
    ensures forall k :: |texts| <= k < |r| ==> r[k] == items[k]
  {
    seq(|items|, k requires 0 <= k < |items| => ObservedItem(items, texts, k))
  }

  function ObservedItem(items: seq<OrderItem>, texts: seq<string>, k: nat): OrderItem
    requires k < |items|
  {
    if k < |texts| then items[k].(observation := Trim(texts[k])) else items[k]
  }

  /** `saveProgramData`: checks the name and the date, then writes the
      name, the date, the observations and the open song's notes into the
      program and the whole program into storage. The notes go to whatever
      `songsList[currentSongIndex]` is at that moment; past the end of the
      list the write throws, after the other fields were assigned and before
      storage is written. */
  function SaveSpec(s: AppState, form: Form): (r: Step)
    ensures r.outcome in {Saved, RejectedName, RejectedDate, Crashed}
    ensures r.next.currentSongIndex == s.currentSongIndex
    ensures r.next.currentFilename == s.currentFilename
    ensures |r.next.data.songsList| == |s.data.songsList|
    ensures |r.next.data.orderList| == |s.data.orderList|
    ensures r.outcome != Saved ==> r.next.storage == s.storage && r.next.data.songsList == s.data.songsList
    ensures r.outcome == Saved ==> r.next.storage == Some(r.next.data)
    ensures r.outcome in {RejectedName, RejectedDate} ==> r.next == s
    ensures r.outcome in {Saved, Crashed} ==>
      r.next.data.orderList == ObservationsFrom(s.data.orderList, form.orderTextareas)
  {
    var name := Trim(form.nameInput);
    if name == [] then Step(RejectedName, s)
    else if form.dateInput == [] then Step(RejectedDate, s)
    else
      var d := s.data.(programName := name, programDate := form.dateInput,
                       orderList := ObservationsFrom(s.data.orderList, form.orderTextareas));
      match s.currentSongIndex
      case None => Step(Saved, s.(data := d, storage := Some(d)))
      case Some(k) =>
        if k < |d.songsList| then
          var d' := d.(songsList := d.songsList[k := d.songsList[k].(notes := Trim(form.notesTextarea))]);
          Step(Saved, s.(data := d', storage := Some(d')))
        else Step(Crashed, s.(data := d))
  }

  /** A save is refused exactly when the trimmed name or the date is empty,
      and a refused save changes nothing at all. */
  lemma SaveRejectsWithoutChange(s: AppState, form: Form)
    ensures SaveSpec(s, form).outcome in {RejectedName, RejectedDate}
      <==> Trim(form.nameInput) == [] || form.dateInput == []
    ensures Trim(form.nameInput) == [] || form.dateInput == [] ==> SaveSpec(s, form).next == s
  {
  }

  /** An accepted save stores the trimmed name and the date, replaces each
      observation that has a textarea with its trimmed text, changes no song
      but the open one's notes, and persists exactly what it holds; it
      throws only when the open index is past the end of the list. */
  lemma SaveCommits(s: AppState, form: Form)
    requires Trim(form.nameInput) != [] && form.dateInput != []
    ensures var r := SaveSpec(s, form);
      (r.outcome == Saved <==> ActiveInRange(s))
    ensures var r := SaveSpec(s, form);
      (r.outcome == Crashed <==> !ActiveInRange(s))
    ensures var r := SaveSpec(s, form);
      r.next.data.programName == Trim(form.nameInput)
    ensures var r := SaveSpec(s, form);
      Trimmed(r.next.data.programName)
    ensures var r := SaveSpec(s, form);
      r.next.data.programDate == form.dateInput
    ensures var r := SaveSpec(s, form);
      r.next.data.orderList == ObservationsFrom(s.data.orderList, form.orderTextareas)
    ensures var r := SaveSpec(s, form);
      r.next.currentSongIndex == s.currentSongIndex
    ensures var r := SaveSpec(s, form);
      r.next.currentFilename == s.currentFilename
    ensures var r := SaveSpec(s, form);
      (r.outcome == Saved ==> r.next.storage == Some(r.next.data) && NotesOnlyAt(s.data.songsList, r.next.data.songsList, s.currentSongIndex, form.notesTextarea))
    ensures var r := SaveSpec(s, form);
      (r.outcome == Crashed ==> r.next.storage == s.storage && r.next.data.songsList == s.data.songsList)
  {
  }

  /** With the open index in range, a save never throws and keeps it so. */
  lemma SaveKeepsActiveInRange(s: AppState, form: Form)
    ensures ActiveInRange(s) ==> SaveSpec(s, form).outcome != Crashed
    ensures ActiveInRange(s) ==> ActiveInRange(SaveSpec(s, form).next)
  {
  }

  // ---------------------------------------------------------------------
  // Songs

  function NewSong(fileName: string, pdfData: string): Song {
    Song(SongName(fileName), pdfData, "")
  }

  /** The body of `addMusic`'s onload: push the new song, then save. */
  function AddMusicSpec(s: AppState, fileName: string, pdfData: string, form: Form): Step {
    SaveSpec(s.(data := s.data.(songsList := s.data.songsList + [NewSong(fileName, pdfData)])), form)
  }

  /** Adding a song appends exactly one entry with empty notes whatever the
      save does; the earlier entries change only by the save's write of the
      open song's notes. */
  lemma AddMusicAppends(s: AppState, fileName: string, pdfData: string, form: Form)
    requires ActiveInRange(s)
    ensures var r := AddMusicSpec(s, fileName, pdfData, form); var songs := r.next.data.songsList;
      r.outcome != Crashed
    ensures var r := AddMusicSpec(s, fileName, pdfData, form); var songs := r.next.data.songsList;
      |songs| == |s.data.songsList| + 1
    ensures var r := AddMusicSpec(s, fileName, pdfData, form); var songs := r.next.data.songsList;
      songs[|s.data.songsList|] == Song(SongName(fileName), pdfData, "")
    ensures var r := AddMusicSpec(s, fileName, pdfData, form); var songs := r.next.data.songsList;
      (r.outcome == Saved ==> NotesOnlyAt(s.data.songsList, songs[..|s.data.songsList|], s.currentSongIndex, form.notesTextarea))
    ensures var r := AddMusicSpec(s, fileName, pdfData, form); var songs := r.next.data.songsList;
      (r.outcome != Saved ==> songs[..|s.data.songsList|] == s.data.songsList && r.next.storage == s.storage)
    ensures var r := AddMusicSpec(s, fileName, pdfData, form); var songs := r.next.data.songsList;
      ActiveInRange(r.next)
  {
    var s1 := s.(data := s.data.(songsList := s.data.songsList + [NewSong(fileName, pdfData)]));
    assert AddMusicSpec(s, fileName, pdfData, form) == SaveSpec(s1, form);
    SaveKeepsActiveInRange(s1, form);
    if Trim(form.nameInput) != [] && form.dateInput != [] {
      SaveCommits(s1, form);
    }
  }

  /** As written, when a throwing delete has left the open index one past
      the end, adding a song moves that index onto the new song: the save
      goes through and writes the notes textarea into the new entry. */
  lemma AddMusicAdoptsDanglingIndex(s: AppState, fileName: string, pdfData: string, form: Form)
    requires s.currentSongIndex == Some(|s.data.songsList|)
    requires Trim(form.nameInput) != [] && form.dateInput != []
    ensures var r := AddMusicSpec(s, fileName, pdfData, form);
      r.outcome == Saved && r.next.storage == Some(r.next.data)
    ensures var r := AddMusicSpec(s, fileName, pdfData, form);
      r.next.currentSongIndex == Some(|s.data.songsList|) && ActiveInRange(r.next)
    ensures var r := AddMusicSpec(s, fileName, pdfData, form);
      r.next.data.songsList == s.data.songsList + [Song(SongName(fileName), pdfData, Trim(form.notesTextarea))]
  {
    var s1 := s.(data := s.data.(songsList := s.data.songsList + [NewSong(fileName, pdfData)]));
    assert AddMusicSpec(s, fileName, pdfData, form) == SaveSpec(s1, form);
    SaveCommits(s1, form);
  }

  /** Songs [a, b] with b open: deleting a throws and leaves the index
      dangling; adding a song then stores b's notes text in the new song. */
  lemma DeleteThenAddMisfilesNotes(s: AppState, a: Song, b: Song, fileName: string, pdfData: string, form: Form)
    requires s.data.songsList == [a, b] && s.currentSongIndex == Some(1)
    requires Trim(form.nameInput) != [] && form.dateInput != []
    ensures var d := DeleteSongSpec(s, 0, true, form);
      d.outcome == Crashed && d.next.currentSongIndex == Some(1)
    ensures var d := DeleteSongSpec(s, 0, true, form).next;
      var r := AddMusicSpec(d, fileName, pdfData, form);
      r.outcome == Saved
      && r.next.data.songsList == [b, Song(SongName(fileName), pdfData, Trim(form.notesTextarea))]
  {
    DeleteSongLeavesDanglingIndex(s, 0, form);
    var d := DeleteSongSpec(s, 0, true, form).next;
    assert d.data.songsList == [b];
    AddMusicAdoptsDanglingIndex(d, fileName, pdfData, form);
  }

  /** `saveNotes`: with a song open, write its trimmed notes, then save. */
  function SaveNotesSpec(s: AppState, form: Form): Step {
    match s.currentSongIndex
    case None => Step(Skipped, s)
    case Some(k) =>
      if k < |s.data.songsList| then
        var songs := s.data.songsList;
        SaveSpec(s.(data := s.data.(songsList := songs[k := songs[k].(notes := Trim(form.notesTextarea))])), form)
      else Step(Crashed, s)
  }

  /** The open song gets the trimmed notes whether or not the save goes
      through; no other song changes; storage is written only on success. */
  lemma SaveNotesWritesActive(s: AppState, form: Form)
    requires ActiveInRange(s) && s.currentSongIndex.Some?
    ensures var r := SaveNotesSpec(s, form);
      r.outcome != Crashed && r.outcome != Skipped
    ensures var r := SaveNotesSpec(s, form);
      NotesOnlyAt(s.data.songsList, r.next.data.songsList, s.currentSongIndex, form.notesTextarea)
    ensures var r := SaveNotesSpec(s, form);
      (r.outcome == Saved ==> r.next.storage == Some(r.next.data))
    ensures var r := SaveNotesSpec(s, form);
      (r.outcome != Saved ==> r.next.storage == s.storage)
    ensures var r := SaveNotesSpec(s, form);
      ActiveInRange(r.next)
  {
    var k := s.currentSongIndex.value;
    var songs := s.data.songsList;
    var s1 := s.(data := s.data.(songsList := songs[k := songs[k].(notes := Trim(form.notesTextarea))]));
    assert SaveNotesSpec(s, form) == SaveSpec(s1, form);
    SaveKeepsActiveInRange(s1, form);
    if Trim(form.nameInput) != [] && form.dateInput != [] {
      SaveCommits(s1, form);
      var after := SaveSpec(s1, form).next.data.songsList;
      assert after[k] == songs[k].(notes := Trim(form.notesTextarea));
    }
  }

  /** As written, with the open index past the end of the list (the state a
      throwing delete leaves), `saveNotes` throws on its first write and
      changes nothing. */
  lemma SaveNotesWithDanglingIndexThrows(s: AppState, form: Form)
    requires s.currentSongIndex.Some? && s.currentSongIndex.value >= |s.data.songsList|
    ensures SaveNotesSpec(s, form) == Step(Crashed, s)
    ensures !ActiveInRange(s)
  {
  }

  /** The viewer's index after song `index` was removed: cleared if it was
      that song, one less if it was after it, unchanged otherwise. */
  function AdjustAfterDelete(current: Option<nat>, index: nat): (r: Option<nat>)
    ensures current == Some(index) ==> r == None
    ensures current.None? ==> r == None
    ensures current.Some? && current.value > index ==> r == Some(current.value - 1)
    ensures current.Some? && current.value < index ==> r == current
  {
    match current
    case None => None
    case Some(k) => if k == index then None else if k > index then Some(k - 1) else Some(k)
  }

  /** The adjusted index points at the same song as before the removal. */
  lemma AdjustAfterDeleteFollowsSong(songs: seq<Song>, index: nat, k: nat)
    requires index < |songs| && k < |songs| && k != index
    ensures AdjustAfterDelete(Some(k), index).Some?
    ensures AdjustAfterDelete(Some(k), index).value < |songs| - 1
    ensures RemoveAt(songs, index)[AdjustAfterDelete(Some(k), index).value] == songs[k]
  {
  }

  /** `deleteSong` as written: after confirmation, splice the song out, save
      (with the index not yet adjusted), and only then fix up the index. An
      exception from the save skips the fix-up. */
  function DeleteSongSpec(s: AppState, index: nat, confirmed: bool, form: Form): Step {
    if !confirmed then Step(Skipped, s)
    else
      var removed := s.(data := s.data.(songsList := SpliceOut(s.data.songsList, index)));
      var saved := SaveSpec(removed, form);
      if saved.outcome == Crashed then saved
      else Step(saved.outcome, saved.next.(currentSongIndex := AdjustAfterDelete(s.currentSongIndex, index)))
  }

  /** With no song open, deleting removes exactly the entry at `index`,
      keeps the others in order, and leaves nothing open. */
  lemma DeleteSongRemoves(s: AppState, index: nat, form: Form)
    requires index < |s.data.songsList| && s.currentSongIndex.None?
    ensures var r := DeleteSongSpec(s, index, true, form);
      r.outcome != Crashed
    ensures var r := DeleteSongSpec(s, index, true, form);
      r.next.data.songsList == RemoveAt(s.data.songsList, index)
    ensures var r := DeleteSongSpec(s, index, true, form);
      |r.next.data.songsList| == |s.data.songsList| - 1
    ensures var r := DeleteSongSpec(s, index, true, form);
      r.next.currentSongIndex == None
    ensures var r := DeleteSongSpec(s, index, true, form);
      (r.outcome == Saved ==> r.next.storage == Some(r.next.data))
  {
  }

  /** When the save goes through, the index is adjusted by where it was
      relative to the removed song; a refused save still removes the song
      and adjusts the index. */
  lemma DeleteSongAdjustsIndex(s: AppState, index: nat, form: Form)
    requires index < |s.data.songsList|
    requires DeleteSongSpec(s, index, true, form).outcome != Crashed
    ensures var r := DeleteSongSpec(s, index, true, form);
      |r.next.data.songsList| == |s.data.songsList| - 1
    ensures DeleteSongSpec(s, index, true, form).next.currentSongIndex
      == AdjustAfterDelete(s.currentSongIndex, index)
    ensures var r := DeleteSongSpec(s, index, true, form);
      (r.outcome != Saved ==> r.next.data.songsList == RemoveAt(s.data.songsList, index) && r.next.storage == s.storage)
    ensures var r := DeleteSongSpec(s, index, true, form);
      (r.outcome == Saved ==> NotesOnlyAt(RemoveAt(s.data.songsList, index), r.next.data.songsList,
                                          s.currentSongIndex, form.notesTextarea))
  {
    var removed := s.(data := s.data.(songsList := RemoveAt(s.data.songsList, index)));
    var saved := SaveSpec(removed, form);
    assert DeleteSongSpec(s, index, true, form)
      == Step(saved.outcome, saved.next.(currentSongIndex := AdjustAfterDelete(s.currentSongIndex, index)));
    if Trim(form.nameInput) != [] && form.dateInput != [] {
      SaveCommits(removed, form);
    }
  }

  /** A cancelled delete changes nothing. */
  lemma DeleteSongCancelled(s: AppState, index: nat, form: Form)
    ensures DeleteSongSpec(s, index, false, form) == Step(Skipped, s)
  {
  }

  /** As written, when the open song is the deleted one or comes after it,
      and is not the last, the save inside `deleteSong` writes the notes
      textarea into the song that followed the open one in the old list. */
  lemma DeleteSongStaleNotes(s: AppState, index: nat, form: Form)
    requires s.currentSongIndex.Some?
    requires index <= s.currentSongIndex.value && s.currentSongIndex.value + 1 < |s.data.songsList|
    requires Trim(form.nameInput) != [] && form.dateInput != []
    ensures var c := s.currentSongIndex.value; var r := DeleteSongSpec(s, index, true, form);
      r.outcome == Saved
    ensures var c := s.currentSongIndex.value; var r := DeleteSongSpec(s, index, true, form);
      r.next.data.songsList[c] == s.data.songsList[c + 1].(notes := Trim(form.notesTextarea))
  {
  }

  /** As written, deleting with the last song open (the deleted one or a
      later one) throws inside the save: the removal stays in memory but is
      not persisted, and the index is left one past the end of the list. */
  lemma DeleteSongLeavesDanglingIndex(s: AppState, index: nat, form: Form)
    requires index < |s.data.songsList| && s.currentSongIndex == Some(|s.data.songsList| - 1)
    requires Trim(form.nameInput) != [] && form.dateInput != []
    ensures var r := DeleteSongSpec(s, index, true, form);
      r.outcome == Crashed
    ensures var r := DeleteSongSpec(s, index, true, form);
      r.next.currentSongIndex == s.currentSongIndex
    ensures var r := DeleteSongSpec(s, index, true, form);
      !ActiveInRange(r.next)
    ensures var r := DeleteSongSpec(s, index, true, form);
      r.next.storage == s.storage
    ensures var r := DeleteSongSpec(s, index, true, form);
      r.next.data.songsList == RemoveAt(s.data.songsList, index)
  {
  }

  /** As written, a delete button left on the page after such a throw can
      name a position past the end of the list: the splice removes nothing,
      the save runs as usual, and with the index still dangling it throws
      again, so nothing is ever persisted. */
  lemma DeleteSongPastEnd(s: AppState, index: nat, form: Form)
    requires |s.data.songsList| <= index
    ensures var r := DeleteSongSpec(s, index, true, form);
      |r.next.data.songsList| == |s.data.songsList|
    ensures var r := DeleteSongSpec(s, index, true, form);
      (r.outcome != Saved ==> r.next.data.songsList == s.data.songsList)
    ensures var r := DeleteSongSpec(s, index, true, form);
      (r.outcome == Saved ==> NotesOnlyAt(s.data.songsList, r.next.data.songsList, s.currentSongIndex, form.notesTextarea))
    ensures s.currentSongIndex == Some(|s.data.songsList|) && Trim(form.nameInput) != [] && form.dateInput != [] ==>
      DeleteSongSpec(s, index, true, form).outcome == Crashed
      && DeleteSongSpec(s, index, true, form).next.storage == s.storage
  {
    var saved := SaveSpec(s, form);
    assert DeleteSongSpec(s, index, true, form).outcome == saved.outcome;
    assert DeleteSongSpec(s, index, true, form).next.data == saved.next.data;
    assert DeleteSongSpec(s, index, true, form).next.storage == saved.next.storage;
    if Trim(form.nameInput) != [] && form.dateInput != [] {
      SaveCommits(s, form);
    }
  }

  /** `deleteSong` with the index adjusted before the save: the notes go to
      the song that is open, the index stays in range, and no save throws. */
  function DeleteSongFixed(s: AppState, index: nat, confirmed: bool, form: Form): (r: Step)
    ensures !confirmed ==> r == Step(Skipped, s)
    ensures confirmed && ActiveInRange(s) ==> r.outcome != Crashed && ActiveInRange(r.next)
    ensures confirmed ==> r.next.currentSongIndex == AdjustAfterDelete(s.currentSongIndex, index)
    ensures confirmed && r.outcome != Saved ==>
      r.next.data.songsList == SpliceOut(s.data.songsList, index) && r.next.storage == s.storage
  {
    if !confirmed then Step(Skipped, s)
    else
      var removed := s.(data := s.data.(songsList := SpliceOut(s.data.songsList, index)),
                        currentSongIndex := AdjustAfterDelete(s.currentSongIndex, index));
      SaveKeepsActiveInRange(removed, form);
      SaveSpec(removed, form)
  }

  /** With the fix, a save that goes through writes the notes to the song
      that was open before the delete and keeps every other song as it was
      after the removal. */
  lemma DeleteSongFixedWritesOpenSong(s: AppState, index: nat, form: Form)
    requires index < |s.data.songsList| && ActiveInRange(s)
    requires s.currentSongIndex.Some? && s.currentSongIndex.value != index
    requires DeleteSongFixed(s, index, true, form).outcome == Saved
    ensures var r := DeleteSongFixed(s, index, true, form);
      NotesOnlyAt(RemoveAt(s.data.songsList, index), r.next.data.songsList,
                  r.next.currentSongIndex, form.notesTextarea)
    ensures var r := DeleteSongFixed(s, index, true, form);
      r.next.currentSongIndex.Some?
      && r.next.data.songsList[r.next.currentSongIndex.value]
         == s.data.songsList[s.currentSongIndex.value].(notes := Trim(form.notesTextarea))
  {
    var removed := s.(data := s.data.(songsList := RemoveAt(s.data.songsList, index)),
                      currentSongIndex := AdjustAfterDelete(s.currentSongIndex, index));
    assert DeleteSongFixed(s, index, true, form) == SaveSpec(removed, form);
    SaveCommits(removed, form);
    AdjustAfterDeleteFollowsSong(s.data.songsList, index, s.currentSongIndex.value);
  }

  /** `showPdf`: the song at `index` becomes the open one. */
  function OpenSongSpec(s: AppState, index: nat): AppState {
    s.(currentSongIndex := Some(index))
  }

  /** `clearPdfViewer`: no song is open. */
  function ClearViewerSpec(s: AppState): AppState {
    s.(currentSongIndex := None)
  }

  // ---------------------------------------------------------------------
  // Drag and drop

  /** `dropMusic`: nothing on a drop onto the same place; otherwise move the
      song and save. The open index is not touched. */
  function DropMusicSpec(s: AppState, from: nat, to: nat, form: Form): Step
    requires from < |s.data.songsList| && to < |s.data.songsList|
  {
    if from == to then Step(Skipped, s)
    else SaveSpec(s.(data := s.data.(songsList := Move(s.data.songsList, from, to))), form)
  }

  /** `dropOrder`: the same for the order of service. */
  function DropOrderSpec(s: AppState, from: nat, to: nat, form: Form): Step
    requires from < |s.data.orderList| && to < |s.data.orderList|
  {
    if from == to then Step(Skipped, s)
    else SaveSpec(s.(data := s.data.(orderList := Move(s.data.orderList, from, to))), form)
  }

  /** Dropping onto the same index leaves everything as it was. */
  lemma DropSameIndexChangesNothing(s: AppState, i: nat, form: Form)
    ensures i < |s.data.songsList| ==> DropMusicSpec(s, i, i, form) == Step(Skipped, s)
    ensures i < |s.data.orderList| ==> DropOrderSpec(s, i, i, form) == Step(Skipped, s)
  {
  }

  /** Moving a song keeps the list a permutation with the moved song at
      `to` and the others in their relative order; apart from that, only the
      save's write of the open song's notes changes a song. */
  lemma DropMusicMoves(s: AppState, from: nat, to: nat, form: Form)
    requires from < |s.data.songsList| && to < |s.data.songsList| && from != to
    ensures var r := DropMusicSpec(s, from, to, form); var moved := Move(s.data.songsList, from, to);
      ActiveInRange(s) ==> r.outcome != Crashed
    ensures var r := DropMusicSpec(s, from, to, form); var moved := Move(s.data.songsList, from, to);
      |moved| == |s.data.songsList|
    ensures var r := DropMusicSpec(s, from, to, form); var moved := Move(s.data.songsList, from, to);
      multiset(moved) == multiset(s.data.songsList)
    ensures var r := DropMusicSpec(s, from, to, form); var moved := Move(s.data.songsList, from, to);
      moved[to] == s.data.songsList[from]
    ensures var r := DropMusicSpec(s, from, to, form); var moved := Move(s.data.songsList, from, to);
      RemoveAt(moved, to) == RemoveAt(s.data.songsList, from)
    ensures var r := DropMusicSpec(s, from, to, form); var moved := Move(s.data.songsList, from, to);
      r.next.currentSongIndex == s.currentSongIndex
    ensures var r := DropMusicSpec(s, from, to, form); var moved := Move(s.data.songsList, from, to);
      (r.outcome == Saved ==> NotesOnlyAt(moved, r.next.data.songsList, s.currentSongIndex, form.notesTextarea))
    ensures var r := DropMusicSpec(s, from, to, form); var moved := Move(s.data.songsList, from, to);
      (r.outcome != Saved ==> r.next.data.songsList == moved)
    ensures var r := DropMusicSpec(s, from, to, form); var moved := Move(s.data.songsList, from, to);
      ActiveInRange(s) ==> ActiveInRange(r.next)
  {
    var moved := Move(s.data.songsList, from, to);
    MovePermutes(s.data.songsList, from, to);
    MoveKeepsOthersInOrder(s.data.songsList, from, to);
    var s1 := s.(data := s.data.(songsList := moved));
    assert DropMusicSpec(s, from, to, form) == SaveSpec(s1, form);
    SaveKeepsActiveInRange(s1, form);
    if Trim(form.nameInput) != [] && form.dateInput != [] {
      SaveCommits(s1, form);
    }
  }

  /** Moving an order item keeps the titles a permutation with the moved
      one at `to` and the others in order; the observations are then taken
      from the textareas by position. */
  lemma DropOrderMoves(s: AppState, from: nat, to: nat, form: Form)
    requires from < |s.data.orderList| && to < |s.data.orderList| && from != to
    ensures var moved := Move(s.data.orderList, from, to);
      multiset(moved) == multiset(s.data.orderList)
    ensures var moved := Move(s.data.orderList, from, to);
      moved[to] == s.data.orderList[from]
    ensures var moved := Move(s.data.orderList, from, to);
      RemoveAt(moved, to) == RemoveAt(s.data.orderList, from)
    ensures |DropOrderSpec(s, from, to, form).next.data.orderList| == |s.data.orderList|
    ensures var r := DropOrderSpec(s, from, to, form); var moved := Move(s.data.orderList, from, to);
      forall k :: 0 <= k < |moved| ==> r.next.data.orderList[k].title == moved[k].title
    ensures var r := DropOrderSpec(s, from, to, form);
      r.outcome in {RejectedName, RejectedDate} ==> r.next.data.orderList == Move(s.data.orderList, from, to)
  {
    var moved := Move(s.data.orderList, from, to);
    MovePermutes(s.data.orderList, from, to);
    MoveKeepsOthersInOrder(s.data.orderList, from, to);
    var s1 := s.(data := s.data.(orderList := moved));
    assert DropOrderSpec(s, from, to, form) == SaveSpec(s1, form);
  }

  /** As written, the save after an order drop reads the observation
      textareas before the list is drawn again. When they show the
      observations in the old order, a completed drop moves the titles but
      leaves every observation at its old position: the moved item takes
      the observation of the item that was at `to`. */
  lemma DropOrderLeavesObservationsBehind(s: AppState, from: nat, to: nat, form: Form)
    requires from < |s.data.orderList| && to < |s.data.orderList| && from != to
    requires |form.orderTextareas| == |s.data.orderList|
    requires forall k :: 0 <= k < |s.data.orderList| ==> form.orderTextareas[k] == s.data.orderList[k].observation
    requires Trim(form.nameInput) != [] && form.dateInput != [] && ActiveInRange(s)
    ensures DropOrderSpec(s, from, to, form).outcome == Saved
    ensures var r := DropOrderSpec(s, from, to, form);
      forall k :: 0 <= k < |s.data.orderList| ==>
        r.next.data.orderList[k].title == Move(s.data.orderList, from, to)[k].title
        && r.next.data.orderList[k].observation == Trim(s.data.orderList[k].observation)
    ensures var r := DropOrderSpec(s, from, to, form);
      r.next.data.orderList[to].title == s.data.orderList[from].title
      && r.next.data.orderList[to].observation == Trim(s.data.orderList[to].observation)
  {
    var moved := Move(s.data.orderList, from, to);
    MoveShape(s.data.orderList, from, to);
    var s1 := s.(data := s.data.(orderList := moved));
    assert DropOrderSpec(s, from, to, form) == SaveSpec(s1, form);
    SaveCommits(s1, form);
  }

  /** The observation textareas as the page shows them once the list is
      drawn in its new order: the one at `from` moves to `to`. */
  function MoveTextareas(form: Form, from: nat, to: nat): Form {
    if from < |form.orderTextareas| && to < |form.orderTextareas| then
      form.(orderTextareas := Move(form.orderTextareas, from, to))
    else form
  }

  /** `dropOrder` with the save reading the textareas in the new order, as
      it would after drawing the list again before saving. */
  function DropOrderFollowing(s: AppState, from: nat, to: nat, form: Form): Step
    requires from < |s.data.orderList| && to < |s.data.orderList|
  {
    if from == to then Step(Skipped, s)
    else SaveSpec(s.(data := s.data.(orderList := Move(s.data.orderList, from, to))),
                  MoveTextareas(form, from, to))
  }

  /** Reading the textareas after moving both them and the items is the same
      as reading them first and moving the result. */
  lemma ObservationsFollowMove(items: seq<OrderItem>, texts: seq<string>, from: nat, to: nat)
    requires |items| == |texts| && from < |items| && to < |items|
    ensures ObservationsFrom(Move(items, from, to), Move(texts, from, to))
            == Move(ObservationsFrom(items, texts), from, to)
  {
    var o := ObservationsFrom(items, texts);
    var a := ObservationsFrom(Move(items, from, to), Move(texts, from, to));
    var b := Move(o, from, to);
    MoveShape(items, from, to);
    MoveShape(texts, from, to);
    MoveShape(o, from, to);
    forall j | 0 <= j < |items| ensures a[j] == b[j] {
      var p := if j == to then from
               else if from <= j < to then j + 1
               else if to < j <= from then j - 1
               else j;
      assert Move(items, from, to)[j] == items[p];
      assert Move(texts, from, to)[j] == texts[p];
      assert b[j] == o[p];
    }
  }

  /** With the fix, a completed drop moves each item together with the text
      of its own textarea: the result is the observed list, moved. */
  lemma DropOrderFollowingCarriesObservations(s: AppState, from: nat, to: nat, form: Form)
    requires from < |s.data.orderList| && to < |s.data.orderList| && from != to
    requires |form.orderTextareas| == |s.data.orderList|
    requires Trim(form.nameInput) != [] && form.dateInput != [] && ActiveInRange(s)
    ensures DropOrderFollowing(s, from, to, form).outcome == Saved
    ensures DropOrderFollowing(s, from, to, form).next.data.orderList
            == Move(ObservationsFrom(s.data.orderList, form.orderTextareas), from, to)
    ensures var r := DropOrderFollowing(s, from, to, form);
      r.next.data.orderList[to].title == s.data.orderList[from].title
      && r.next.data.orderList[to].observation == Trim(form.orderTextareas[from])
  {
    var moved := Move(s.data.orderList, from, to);
    var s1 := s.(data := s.data.(orderList := moved));
    var form1 := MoveTextareas(form, from, to);
    assert DropOrderFollowing(s, from, to, form) == SaveSpec(s1, form1);
    SaveCommits(s1, form1);
    ObservationsFollowMove(s.data.orderList, form.orderTextareas, from, to);
    MoveShape(ObservationsFrom(s.data.orderList, form.orderTextareas), from, to);
  }

  /** As written, moving the open song leaves the index where the song was,
      so the save writes the notes textarea into the song that slid into
      that place, and the index no longer names the song on display. */
  lemma DropMusicLosesOpenSong(s: AppState, from: nat, to: nat, form: Form)
    requires from < |s.data.songsList| && to < |s.data.songsList| && from != to
    requires s.currentSongIndex == Some(from)
    requires Trim(form.nameInput) != [] && form.dateInput != []
    ensures var r := DropMusicSpec(s, from, to, form); var neighbour := if from < to then from + 1 else from - 1;
      r.outcome == Saved
    ensures var r := DropMusicSpec(s, from, to, form); var neighbour := if from < to then from + 1 else from - 1;
      r.next.currentSongIndex == Some(from)
    ensures var r := DropMusicSpec(s, from, to, form); var neighbour := if from < to then from + 1 else from - 1;
      r.next.data.songsList[from] == s.data.songsList[neighbour].(notes := Trim(form.notesTextarea))
  {
    MoveShape(s.data.songsList, from, to);
  }

  /** `dropMusic` with the open index carried along with the songs, so that
      it still names the song on display. */
  function DropMusicFollowing(s: AppState, from: nat, to: nat, form: Form): (r: Step)
    requires from < |s.data.songsList| && to < |s.data.songsList|
    ensures from == to ==> r == Step(Skipped, s)
    ensures ActiveInRange(s) ==> r.outcome != Crashed && ActiveInRange(r.next)
  {
    if from == to then Step(Skipped, s)
    else
      var s1 := s.(data := s.data.(songsList := Move(s.data.songsList, from, to)),
                   currentSongIndex := FollowMove(s.currentSongIndex, from, to, |s.data.songsList|));
      SaveKeepsActiveInRange(s1, form);
      SaveSpec(s1, form)
  }

  /** The open index carried through a move of a list of length `n`. */
  function FollowMove(current: Option<nat>, from: nat, to: nat, n: nat): (r: Option<nat>)
    requires from < n && to < n
    ensures r.None? <==> current.None?
    ensures current.Some? && current.value < n ==> r.value < n
  {
    match current
    case None => None
    case Some(k) => Some(MovedIndex(k, from, to))
  }

  /** With the fix, the index after the move names the song that was open
      before it, and a save that goes through writes the notes to that song
      and changes no other. */
  lemma DropMusicFollowingKeepsOpenSong(s: AppState, from: nat, to: nat, form: Form)
    requires from < |s.data.songsList| && to < |s.data.songsList| && from != to
    requires ActiveInRange(s) && s.currentSongIndex.Some?
    ensures var r := DropMusicFollowing(s, from, to, form);
      r.next.currentSongIndex.Some?
      && r.next.currentSongIndex.value < |r.next.data.songsList|
      && r.next.data.songsList[r.next.currentSongIndex.value].name
         == s.data.songsList[s.currentSongIndex.value].name
      && r.next.data.songsList[r.next.currentSongIndex.value].pdfData
         == s.data.songsList[s.currentSongIndex.value].pdfData
    ensures var r := DropMusicFollowing(s, from, to, form);
      r.outcome == Saved ==>
        NotesOnlyAt(Move(s.data.songsList, from, to), r.next.data.songsList,
                    r.next.currentSongIndex, form.notesTextarea)
  {
    var s1 := s.(data := s.data.(songsList := Move(s.data.songsList, from, to)),
                 currentSongIndex := FollowMove(s.currentSongIndex, from, to, |s.data.songsList|));
    assert DropMusicFollowing(s, from, to, form) == SaveSpec(s1, form);
    MoveTracks(s.data.songsList, from, to, s.currentSongIndex.value);
    if Trim(form.nameInput) != [] && form.dateInput != [] {
      SaveCommits(s1, form);
    }
  }

  /** The `oninput` handler of observation textarea `index`: write its
      trimmed text into the item, then save. */
  function EditObservationSpec(s: AppState, index: nat, text: string, form: Form): Step
    requires index < |s.data.orderList|
  {
    var items := s.data.orderList;
    SaveSpec(s.(data := s.data.(orderList := items[index := items[index].(observation := Trim(text))])), form)
  }

  /** The edited item ends up with the trimmed text whether or not the save
      goes through (the form shows the same text in that textarea); no other
      title changes. */
  lemma EditObservationWrites(s: AppState, index: nat, text: string, form: Form)
    requires index < |s.data.orderList|
    requires index < |form.orderTextareas| ==> form.orderTextareas[index] == text
    ensures |EditObservationSpec(s, index, text, form).next.data.orderList| == |s.data.orderList|
    ensures EditObservationSpec(s, index, text, form).next.data.orderList[index].observation == Trim(text)
    ensures var r := EditObservationSpec(s, index, text, form);
      forall k :: 0 <= k < |s.data.orderList| ==> r.next.data.orderList[k].title == s.data.orderList[k].title
    ensures var r := EditObservationSpec(s, index, text, form);
      r.outcome != Saved ==> r.next.storage == s.storage
  {
    var items := s.data.orderList;
    var s1 := s.(data := s.data.(orderList := items[index := items[index].(observation := Trim(text))]));
    assert EditObservationSpec(s, index, text, form) == SaveSpec(s1, form);
    var r := SaveSpec(s1, form);
    if r.outcome in {Saved, Crashed} {
      var observed := ObservationsFrom(s1.data.orderList, form.orderTextareas);
      assert r.next.data.orderList == observed;
      assert observed[index] == ObservedItem(s1.data.orderList, form.orderTextareas, index);
    }
  }

  // ---------------------------------------------------------------------
  // Export, import, reset

  /** `exportProgram`: save first (a refused save does not stop the export,
      a throwing one does), then offer the program under the remembered
      file name or the default one. */
  function ExportSpec(s: AppState, form: Form): (Step, Option<Download>) {
    var saved := SaveSpec(s, form);
    if saved.outcome == Crashed then (saved, None)
    else (saved, Some(Download(ExportFilename(s.currentFilename), saved.next.data)))
  }

  /** The export offers a file exactly when its save does not throw, which
      is always the case with the open index in range. The file holds the
      program as it is after the save attempt, under the current file name
      if there is one and "programa_culto.json" otherwise. A throwing save
      offers nothing and leaves storage alone. */
  lemma ExportChoosesFilename(s: AppState, form: Form)
    ensures var (r, download) := ExportSpec(s, form);
      download.None? <==> r.outcome == Crashed
    ensures var (r, download) := ExportSpec(s, form);
      ActiveInRange(s) ==> download.Some?
    ensures var (r, download) := ExportSpec(s, form);
      download.Some? ==> download.value.content == r.next.data
    ensures var (r, download) := ExportSpec(s, form);
      (download.Some? && s.currentFilename != [] ==> download.value.filename == s.currentFilename)
    ensures var (r, download) := ExportSpec(s, form);
      (download.Some? && s.currentFilename == [] ==> download.value.filename == DefaultExportFilename)
    ensures var (r, download) := ExportSpec(s, form);
      (download.Some? && r.outcome != Saved ==> download.value.content == s.data)
    ensures var (r, download) := ExportSpec(s, form);
      (download.None? ==> r.next.storage == s.storage)
  {
  }

  /** Songs [a, b] with b open: deleting a throws and leaves the index
      dangling; exporting then throws in its save as well, so no file is
      offered and storage still holds what it held before the delete. */
  lemma DeleteThenExportOffersNothing(s: AppState, a: Song, b: Song, form: Form)
    requires s.data.songsList == [a, b] && s.currentSongIndex == Some(1)
    requires Trim(form.nameInput) != [] && form.dateInput != []
    ensures var d := DeleteSongSpec(s, 0, true, form).next;
      ExportSpec(d, form).0.outcome == Crashed && ExportSpec(d, form).1 == None
    ensures var d := DeleteSongSpec(s, 0, true, form).next;
      ExportSpec(d, form).0.next.storage == s.storage
  {
    DeleteSongLeavesDanglingIndex(s, 0, form);
    var d := DeleteSongSpec(s, 0, true, form).next;
    assert d.data.songsList == [b];
    SaveCommits(d, form);
  }

  /** The field rules of `importProgram`: a falsy name or date takes the
      default or today, a list that is not an array becomes empty (songs) or
      the default order. */
  function Sanitize(p: ImportedProgram, today: string): (d: ProgramData)
    ensures d.programName == if p.programName != [] then p.programName else DefaultProgramName
    ensures d.programDate == if p.programDate != [] then p.programDate else today
    ensures d.songsList == if p.songsList.Some? then p.songsList.value else []
    ensures d.orderList == if p.orderList.Some? then p.orderList.value else DefaultOrder
  {
    ProgramData(
      if p.programName != [] then p.programName else DefaultProgramName,
      if p.programDate != [] then p.programDate else today,
      match p.songsList case Some(songs) => songs case None => [],
      match p.orderList case Some(items) => items case None => DefaultOrder)
  }

  /** The body of `importProgram`'s onload. `parsed` is what `JSON.parse`
      gave for the file text, `None` when it threw. */
  function ImportSpec(s: AppState, parsed: Option<ImportedProgram>, fileName: string, today: string): Step {
    match parsed
    case None => Step(ParseFailed, s)
    case Some(p) =>
      var d := Sanitize(p, today);
      Step(Saved, AppState(d, None, ImportFilename(fileName), Some(d)))
  }

  /** A file that does not parse leaves everything as it was; one that does
      replaces the whole program with its sanitised fields, persists it,
      remembers a ".json" file name and closes the viewer. */
  lemma ImportReplacesAll(s: AppState, parsed: Option<ImportedProgram>, fileName: string, today: string)
    ensures parsed.None? ==> ImportSpec(s, parsed, fileName, today) == Step(ParseFailed, s)
    ensures parsed.Some? ==>
      var r := ImportSpec(s, parsed, fileName, today);
      && r.outcome == Saved
      && r.next.data == Sanitize(parsed.value, today)
      && r.next.storage == Some(r.next.data)
      && r.next.currentSongIndex == None
      && EndsWith(r.next.currentFilename, ".json")
      && ActiveInRange(r.next) && FilenameOk(r.next)
  {
  }

  /** A malformed order list falls back to the five default items while the
      imported songs are kept. */
  lemma ImportDefaultsOrder(s: AppState, name: string, date: string, songs: seq<Song>,
                            fileName: string, today: string)
    ensures var r := ImportSpec(s, Some(ImportedProgram(name, date, Some(songs), None)), fileName, today);
      r.next.data.songsList == songs && r.next.data.orderList == DefaultOrder
      && |r.next.data.orderList| == 5
  {
  }

  /** What an export writes, read back by an import. */
  function AsImported(d: ProgramData): ImportedProgram {
    ImportedProgram(d.programName, d.programDate, Some(d.songsList), Some(d.orderList))
  }

  /** Exporting after a successful save and importing the file gives back the
      same program under the same file name. */
  lemma ExportImportRoundTrip(s: AppState, form: Form, today: string)
    requires ActiveInRange(s) && FilenameOk(s)
    requires SaveSpec(s, form).outcome == Saved
    ensures var (r, download) := ExportSpec(s, form); var back := ImportSpec(r.next, Some(AsImported(download.value.content)), download.value.filename, today);
      back.next.data == r.next.data
    ensures var (r, download) := ExportSpec(s, form); var back := ImportSpec(r.next, Some(AsImported(download.value.content)), download.value.filename, today);
      back.next.currentFilename == download.value.filename
  {
    var (r, download) := ExportSpec(s, form);
    ExportFilenameIsJson(s);
    SaveCommits(s, form);
    assert Trimmed(r.next.data.programName) && r.next.data.programName != [];
  }

  /** `resetProgram`: after confirmation, the defaults with today's date, no
      songs, a fresh default order, no file name, nothing open, persisted. */
  function ResetSpec(s: AppState, confirmed: bool, today: string): Step {
    if !confirmed then Step(Skipped, s)
    else
      var d := ProgramData(DefaultProgramName, today, [], DefaultOrder);
      Step(Saved, AppState(d, None, "", Some(d)))
  }

  lemma ResetRestoresDefaults(s: AppState, confirmed: bool, today: string)
    ensures !confirmed ==> ResetSpec(s, confirmed, today) == Step(Skipped, s)
    ensures confirmed ==>
      var r := ResetSpec(s, confirmed, today).next;
      && r.data.programName == DefaultProgramName
      && r.data.programDate == today
      && r.data.songsList == []
      && |r.data.orderList| == 5
      && (forall k :: 0 <= k < 5 ==> r.data.orderList[k].observation == [])
      && r.data.orderList == DefaultOrder
      && r.currentFilename == [] && r.currentSongIndex == None
      && r.storage == Some(r.data)
  {
  }

  // ---------------------------------------------------------------------
  // Invariants across handlers

  /** The handlers that only save keep the remembered file name. */
  lemma SavingHandlersKeepFilename(s: AppState, form: Form, fileName: string, pdfData: string)
    ensures SaveSpec(s, form).next.currentFilename == s.currentFilename
    ensures AddMusicSpec(s, fileName, pdfData, form).next.currentFilename == s.currentFilename
    ensures SaveNotesSpec(s, form).next.currentFilename == s.currentFilename
    ensures ExportSpec(s, form).0.next.currentFilename == s.currentFilename
  {
    var songs := s.data.songsList;
    if s.currentSongIndex.Some? && s.currentSongIndex.value < |songs| {
      var k := s.currentSongIndex.value;
      var s1 := s.(data := s.data.(songsList := songs[k := songs[k].(notes := Trim(form.notesTextarea))]));
      assert SaveNotesSpec(s, form) == SaveSpec(s1, form);
    }
  }

  /** The list editors keep the remembered file name. */
  lemma EditorsKeepFilename(s: AppState, form: Form, from: nat, to: nat, index: nat, text: string,
                            confirmed: bool)
    ensures from < |s.data.songsList| && to < |s.data.songsList| ==>
      DropMusicSpec(s, from, to, form).next.currentFilename == s.currentFilename
    ensures from < |s.data.orderList| && to < |s.data.orderList| ==>
      DropOrderSpec(s, from, to, form).next.currentFilename == s.currentFilename
    ensures index < |s.data.orderList| ==>
      EditObservationSpec(s, index, text, form).next.currentFilename == s.currentFilename
    ensures DeleteSongSpec(s, index, confirmed, form).next.currentFilename == s.currentFilename
  {
    if from < |s.data.songsList| && to < |s.data.songsList| && from != to {
      var s1 := s.(data := s.data.(songsList := Move(s.data.songsList, from, to)));
      assert DropMusicSpec(s, from, to, form) == SaveSpec(s1, form);
    }
    if from < |s.data.orderList| && to < |s.data.orderList| && from != to {
      var s1 := s.(data := s.data.(orderList := Move(s.data.orderList, from, to)));
      assert DropOrderSpec(s, from, to, form) == SaveSpec(s1, form);
    }
    if index < |s.data.orderList| {
      var items := s.data.orderList;
      var s1 := s.(data := s.data.(orderList := items[index := items[index].(observation := Trim(text))]));
      assert EditObservationSpec(s, index, text, form) == SaveSpec(s1, form);
    }
    if confirmed {
      var s1 := s.(data := s.data.(songsList := SpliceOut(s.data.songsList, index)));
      var saved := SaveSpec(s1, form);
      assert DeleteSongSpec(s, index, confirmed, form).next.currentFilename == saved.next.currentFilename;
    }
  }

  /** Only an import and a reset set the remembered file name, to a ".json"
      name and to the empty name, so it is always one or the other. */
  lemma ImportAndResetSetFilename(s: AppState, parsed: Option<ImportedProgram>, fileName: string,
                                  confirmed: bool, today: string)
    requires FilenameOk(s)
    ensures FilenameOk(ImportSpec(s, parsed, fileName, today).next)
    ensures FilenameOk(ResetSpec(s, confirmed, today).next)
  {
  }

  /** Every saving handler but `deleteSong` as written keeps the open index
      in range. */
  lemma HandlersKeepActiveInRange(s: AppState, form: Form, fileName: string, pdfData: string,
                                  from: nat, to: nat, index: nat, text: string)
    requires ActiveInRange(s)
    ensures ActiveInRange(AddMusicSpec(s, fileName, pdfData, form).next)
    ensures s.currentSongIndex.Some? ==> ActiveInRange(SaveNotesSpec(s, form).next)
    ensures from < |s.data.songsList| && to < |s.data.songsList| ==>
      ActiveInRange(DropMusicSpec(s, from, to, form).next)
    ensures from < |s.data.orderList| && to < |s.data.orderList| ==>
      ActiveInRange(DropOrderSpec(s, from, to, form).next)
    ensures index < |s.data.orderList| ==> ActiveInRange(EditObservationSpec(s, index, text, form).next)
    ensures ActiveInRange(ExportSpec(s, form).0.next)
  {
    AddMusicAppends(s, fileName, pdfData, form);
    if s.currentSongIndex.Some? {
      SaveNotesWritesActive(s, form);
    }
    if from < |s.data.songsList| && to < |s.data.songsList| && from != to {
      DropMusicMoves(s, from, to, form);
    }
    if from < |s.data.orderList| && to < |s.data.orderList| && from != to {
      var s1 := s.(data := s.data.(orderList := Move(s.data.orderList, from, to)));
      assert DropOrderSpec(s, from, to, form) == SaveSpec(s1, form);
    }
    if index < |s.data.orderList| {
      var items := s.data.orderList;
      var s1 := s.(data := s.data.(orderList := items[index := items[index].(observation := Trim(text))]));
      assert EditObservationSpec(s, index, text, form) == SaveSpec(s1, form);
    }
    SaveKeepsActiveInRange(s, form);
  }

  /** Import, reset and the viewer's own handlers leave the open index in
      range too: they clear it or set it to a position of the list. */
  lemma ViewerHandlersKeepActiveInRange(s: AppState, fileName: string, index: nat,
                                        parsed: Option<ImportedProgram>, confirmed: bool, today: string)
    requires ActiveInRange(s)
    ensures ActiveInRange(ImportSpec(s, parsed, fileName, today).next)
    ensures ActiveInRange(ResetSpec(s, confirmed, today).next)
    ensures index < |s.data.songsList| ==> ActiveInRange(OpenSongSpec(s, index))
    ensures ActiveInRange(ClearViewerSpec(s))
  {
  }

  lemma NoDotNoPdf(s: string)
    requires forall k :: 0 <= k < |s| ==> s[k] != '.'
    ensures !Contains(s, ".pdf")
  {
    forall i: nat ensures !OccursAt(s, ".pdf", i) {
      if i < |s| { NoPdfWithoutDot(s, i); }
    }
  }

  /** From the defaults: add a PDF whose name has no other dot in it (as
      "Amazing Grace.pdf"), drop it onto itself, delete it; the song list is
      empty again and nothing is open. */
  lemma ScenarioAddReorderRemove(base: string, form: Form, pdfData: string, today: string)
    requires forall k :: 0 <= k < |base| ==> base[k] != '.'
    requires Trim(form.nameInput) != [] && form.dateInput != []
    ensures var s0 := InitializeDateSpec(LoadProgramSpec(Boot(None)), today);
      var s1 := AddMusicSpec(s0, base + ".pdf", pdfData, form).next;
      && s1.data.songsList == [Song(base, pdfData, "")]
      && DropMusicSpec(s1, 0, 0, form).next == s1
      && DeleteSongSpec(s1, 0, true, form).next.data.songsList == []
      && DeleteSongSpec(s1, 0, true, form).next.currentSongIndex == None
  {
    var s0 := InitializeDateSpec(LoadProgramSpec(Boot(None)), today);
    StartUp(None, today);
    AddMusicAppends(s0, base + ".pdf", pdfData, form);
    NoDotNoPdf(base);
    SongNameDropsExtension(base);
    var s1 := AddMusicSpec(s0, base + ".pdf", pdfData, form).next;
    assert s1.data.songsList == [Song(base, pdfData, "")];
    DropSameIndexChangesNothing(s1, 0, form);
    DeleteSongRemoves(s1, 0, form);
  }
}

=== FILE: session.dfy ===
/** The page's module-level state as one object whose handlers change it in
    place, step by step as the script does. Each handler is tied to the
    function in `ProgramModel` that says what it does. */
module Session {
  import opened Text
  import opened Splice
  import opened ProgramModel

  class App {
    // `programData`, field by field
    var programName: string
    var programDate: string
    var songsList: seq<Song>
    var orderList: seq<OrderItem>
    // `currentSongIndex` (`null` is `None`) and `currentFilename`
    var currentSongIndex: Option<nat>
    var currentFilename: string
    // the local-storage slot under "churchProgram"
    var storage: Option<ProgramData>

    function Data(): ProgramData
      reads this
    {
      ProgramData(programName, programDate, songsList, orderList)
    }

    function State(): AppState
      reads this
    {
      AppState(Data(), currentSongIndex, currentFilename, storage)
    }

    /** The module-level declarations, before `window.onload`. */
    constructor (saved: Option<ProgramData>)
      ensures State() == Boot(saved)
    {
      programName := DefaultProgramName;
      programDate := "";
      songsList := [];
      orderList := [];
      currentSongIndex := None;
      currentFilename := "";
      storage := saved;
    }

    method LoadProgram()
      modifies this
      ensures State() == LoadProgramSpec(old(State()))
    {
      match storage
      case Some(saved) =>
        programName := saved.programName;
        programDate := saved.programDate;
        songsList := saved.songsList;
        orderList := saved.orderList;
      case None =>
        orderList := DefaultOrder;
    }

    method InitializeDate(today: string)
      modifies this
      ensures State() == InitializeDateSpec(old(State()), today)
    {
      if programDate == "" {
        programDate := today;
      }
    }

    /** The `forEach` in `saveProgramData`: each order item that has a
        textarea takes that textarea's trimmed text as its observation. */
    method ReadObservations(texts: seq<string>)
      modifies this
      ensures orderList == ObservationsFrom(old(orderList), texts)
      ensures programName == old(programName) && programDate == old(programDate)
      ensures songsList == old(songsList) && currentSongIndex == old(currentSongIndex)
      ensures currentFilename == old(currentFilename) && storage == old(storage)
    {
      var i := 0;
      while i < |orderList|
        invariant 0 <= i <= |orderList| == |old(orderList)|
        invariant forall k :: 0 <= k < i ==> orderList[k] == ObservedItem(old(orderList), texts, k)
        invariant forall k :: i <= k < |orderList| ==> orderList[k] == old(orderList)[k]
        invariant programName == old(programName) && programDate == old(programDate)
        invariant songsList == old(songsList) && currentSongIndex == old(currentSongIndex)
        invariant currentFilename == old(currentFilename) && storage == old(storage)
      {
        if i < |texts| {
          orderList := orderList[i := orderList[i].(observation := Trim(texts[i]))];
        }
        i := i + 1;
      }
    }

    /** `saveProgramData`. */
    method SaveProgramData(form: Form) returns (o: Outcome)
      modifies this
      ensures Step(o, State()) == SaveSpec(old(State()), form)
    {
      var nameInput := Trim(form.nameInput);
      if nameInput == "" {
        return RejectedName;
      }
      var dateInput := form.dateInput;
      if dateInput == "" {
        return RejectedDate;
      }
      programName := nameInput;
      programDate := dateInput;
      ReadObservations(form.orderTextareas);

      if currentSongIndex.Some? {
        var k := currentSongIndex.value;
        if k >= |songsList| {
          // `songsList[currentSongIndex]` is undefined: the write throws
          return Crashed;
        }
        songsList := songsList[k := songsList[k].(notes := Trim(form.notesTextarea))];
      }
      storage := Some(Data());
      return Saved;
    }

    /** The body of `addMusic`'s onload, given the file's name and contents. */
    method AddMusic(fileName: string, pdfData: string, form: Form) returns (o: Outcome)
      modifies this
      ensures Step(o, State()) == AddMusicSpec(old(State()), fileName, pdfData, form)
    {
      var song := Song(SongName(fileName), pdfData, "");
      songsList := songsList + [song];
      o := SaveProgramData(form);
    }

    /** `showPdf`: the song at `index` is the one on display. */
    method ShowPdf(index: nat)
      modifies this
      ensures State() == OpenSongSpec(old(State()), index)
      ensures index < |songsList| ==> ActiveInRange(State())
    {
      currentSongIndex := Some(index);
    }

    /** `clearPdfViewer`: nothing on display. */
    method ClearPdfViewer()
      modifies this
      ensures State() == ClearViewerSpec(old(State()))
      ensures ActiveInRange(State())
    {
      currentSongIndex := None;
    }

    method SaveNotes(form: Form) returns (o: Outcome)
      modifies this
      ensures Step(o, State()) == SaveNotesSpec(old(State()), form)
    {
      if currentSongIndex.None? {
        return Skipped;
      }
      var k := currentSongIndex.value;
      if k >= |songsList| {
        return Crashed;
      }
      songsList := songsList[k := songsList[k].(notes := Trim(form.notesTextarea))];
      o := SaveProgramData(form);
    }

    /** `deleteSong` as written: the save runs before the index is fixed up,
        and a save that throws skips the fix-up. */
    method DeleteSong(index: nat, confirmed: bool, form: Form) returns (o: Outcome)
      modifies this
      ensures Step(o, State()) == DeleteSongSpec(old(State()), index, confirmed, form)
    {
      if !confirmed {
        return Skipped;
      }
      if index < |songsList| {
        songsList := RemoveAt(songsList, index);
      }
      o := SaveProgramData(form);
      if o == Crashed {
        return;
      }
      if currentSongIndex == Some(index) {
        ClearPdfViewer();
      } else if currentSongIndex.Some? && currentSongIndex.value > index {
        currentSongIndex := Some(currentSongIndex.value - 1);
      }
    }

    /** `deleteSong` with the index fixed up before the save. */
    method DeleteSongAdjustingFirst(index: nat, confirmed: bool, form: Form) returns (o: Outcome)
      modifies this
      ensures Step(o, State()) == DeleteSongFixed(old(State()), index, confirmed, form)
      ensures confirmed && old(ActiveInRange(State())) ==> o != Crashed && ActiveInRange(State())
    {
      if !confirmed {
        return Skipped;
      }
      if index < |songsList| {
        songsList := RemoveAt(songsList, index);
      }
      if currentSongIndex == Some(index) {
        ClearPdfViewer();
      } else if currentSongIndex.Some? && currentSongIndex.value > index {
        currentSongIndex := Some(currentSongIndex.value - 1);
      }
      o := SaveProgramData(form);
    }

    /** `dropMusic`: take the song out, put it back at `to`, save. */
    method DropMusic(from: nat, to: nat, form: Form) returns (o: Outcome)
      requires from < |songsList| && to < |songsList|
      modifies this
      ensures Step(o, State()) == DropMusicSpec(old(State()), from, to, form)
    {
      if from == to {
        return Skipped;
      }
      var movedSong := songsList[from];
      songsList := RemoveAt(songsList, from);
      songsList := InsertAt(songsList, to, movedSong);
      o := SaveProgramData(form);
    }

    /** `dropMusic` that also carries the open index along with the songs. */
    method DropMusicFollowingOpenSong(from: nat, to: nat, form: Form) returns (o: Outcome)
      requires from < |songsList| && to < |songsList|
      modifies this
      ensures Step(o, State()) == DropMusicFollowing(old(State()), from, to, form)
      ensures old(ActiveInRange(State())) ==> o != Crashed && ActiveInRange(State())
    {
      if from == to {
        return Skipped;
      }
      var movedSong := songsList[from];
      songsList := RemoveAt(songsList, from);
      songsList := InsertAt(songsList, to, movedSong);
      if currentSongIndex.Some? {
        currentSongIndex := Some(MovedIndex(currentSongIndex.value, from, to));
      }
      o := SaveProgramData(form);
    }

    /** `dropOrder`: the same for the order of service. */
    method DropOrder(from: nat, to: nat, form: Form) returns (o: Outcome)
      requires from < |orderList| && to < |orderList|
      modifies this
      ensures Step(o, State()) == DropOrderSpec(old(State()), from, to, form)
    {
      if from == to {
        return Skipped;
      }
      var movedItem := orderList[from];
      orderList := RemoveAt(orderList, from);
      orderList := InsertAt(orderList, to, movedItem);
      o := SaveProgramData(form);
    }

    /** `dropOrder` with the save reading the textareas in the new order. */
    method DropOrderFollowingTextareas(from: nat, to: nat, form: Form) returns (o: Outcome)
      requires from < |orderList| && to < |orderList|
      modifies this
      ensures Step(o, State()) == DropOrderFollowing(old(State()), from, to, form)
    {
      if from == to {
        return Skipped;
      }
      var movedItem := orderList[from];
      orderList := RemoveAt(orderList, from);
      orderList := InsertAt(orderList, to, movedItem);
      o := SaveProgramData(MoveTextareas(form, from, to));
    }

    /** The `oninput` handler of the observation textarea at `index`. */
    method UpdateObservation(index: nat, text: string, form: Form) returns (o: Outcome)
      requires index < |orderList|
      modifies this
      ensures Step(o, State()) == EditObservationSpec(old(State()), index, text, form)
    {
      orderList := orderList[index := orderList[index].(observation := Trim(text))];
      o := SaveProgramData(form);
    }

    /** `exportProgram`: save, then hand the program to the browser under
        the export file name. */
    method ExportProgram(form: Form) returns (o: Outcome, download: Option<Download>)
      modifies this
      ensures (Step(o, State()), download) == ExportSpec(old(State()), form)
    {
      o := SaveProgramData(form);
      if o == Crashed {
        return o, None;
      }
      download := Some(Download(ExportFilename(currentFilename), Data()));
    }

    /** The body of `importProgram`'s onload, given what `JSON.parse` made of
        the file (`None` when it threw) and the file's name. */
    method ImportProgram(parsed: Option<ImportedProgram>, fileName: string, today: string)
      returns (o: Outcome)
      modifies this
      ensures Step(o, State()) == ImportSpec(old(State()), parsed, fileName, today)
    {
      if parsed.None? {
        return ParseFailed;
      }
      var imported := parsed.value;
      programName := if imported.programName != "" then imported.programName else DefaultProgramName;
      programDate := if imported.programDate != "" then imported.programDate else today;
      songsList := match imported.songsList case Some(songs) => songs case None => [];
      orderList := match imported.orderList case Some(items) => items case None => DefaultOrder;
      currentFilename := ImportFilename(fileName);
      storage := Some(Data());
      ClearPdfViewer();
      return Saved;
    }

    /** `resetProgram`. */
    method ResetProgram(confirmed: bool, today: string) returns (o: Outcome)
      modifies this
      ensures Step(o, State()) == ResetSpec(old(State()), confirmed, today)
    {
      if !confirmed {
        return Skipped;
      }
      programName := DefaultProgramName;
      programDate := today;
      songsList := [];
      orderList := DefaultOrder;
      currentFilename := "";
      storage := Some(Data());
      ClearPdfViewer();
      return Saved;
    }
  }
}

=== FILE: splice.dfy ===
/** `Array.prototype.splice` as the editor uses it: removing one element
    (`splice(i, 1)`), inserting one (`splice(i, 0, x)`), and the drag-and-drop
    move that is the one followed by the other. */
module Splice {

  /** `list.splice(i, 1)`: the element at `i` is gone, those after it shift
      down by one. */
  function RemoveAt<T>(s: seq<T>, i: nat): (r: seq<T>)
    requires i < |s|
    ensures |r| == |s| - 1
    ensures forall k :: 0 <= k < i ==> r[k] == s[k]
    ensures forall k :: i <= k < |r| ==> r[k] == s[k + 1]
    ensures multiset(r) + multiset{s[i]} == multiset(s)
  {
    assert s == s[..i] + [s[i]] + s[i + 1..];
    s[..i] + s[i + 1..]
  }

  /** `list.splice(i, 1)` for any `i`: at or past the end it removes nothing. */
  function SpliceOut<T>(s: seq<T>, i: nat): (r: seq<T>)
    ensures i < |s| ==> r == RemoveAt(s, i)
    ensures |s| <= i ==> r == s
  {
    if i < |s| then RemoveAt(s, i) else s
  }

  /** `list.splice(i, 0, x)`: `x` lands at `i`, those from `i` on shift up
      by one. */
  function InsertAt<T>(s: seq<T>, i: nat, x: T): (r: seq<T>)
    requires i <= |s|
    ensures |r| == |s| + 1
    ensures r[i] == x
    ensures forall k :: 0 <= k < i ==> r[k] == s[k]
    ensures forall k :: i < k < |r| ==> r[k] == s[k - 1]
    ensures multiset(r) == multiset(s) + multiset{x}
  {
    assert s == s[..i] + s[i..];
    s[..i] + [x] + s[i..]
  }

  /** The drop handlers: take the element out at `from`, then put it back at
      `to` in the list as it is after the removal. */
  function Move<T>(s: seq<T>, from: nat, to: nat): seq<T>
    requires from < |s| && to < |s|
  {
    InsertAt(RemoveAt(s, from), to, s[from])
  }

  /** Where the element that was at `k` sits after `Move(s, from, to)`. */
  function MovedIndex(k: nat, from: nat, to: nat): nat {
    if k == from then to
    else if from < k <= to then k - 1
    else if to <= k < from then k + 1
    else k
  }

  /** A move keeps the length, puts the moved element at `to`, and shifts
      exactly the elements between the two positions by one towards `from`. */
  lemma MoveShape<T>(s: seq<T>, from: nat, to: nat)
    requires from < |s| && to < |s|
    ensures |Move(s, from, to)| == |s|
    ensures Move(s, from, to)[to] == s[from]
    ensures forall k :: 0 <= k < |s| && k < from && k < to ==> Move(s, from, to)[k] == s[k]
    ensures forall k :: from < k < |s| && to < k ==> Move(s, from, to)[k] == s[k]
    ensures forall k :: from <= k < to ==> Move(s, from, to)[k] == s[k + 1]
    ensures forall k :: to < k <= from ==> Move(s, from, to)[k] == s[k - 1]
  {
  }

  /** Every element can be followed through a move: the one at `k` is found
      at `MovedIndex(k, from, to)`. */
  lemma MoveTracks<T>(s: seq<T>, from: nat, to: nat, k: nat)
    requires from < |s| && to < |s| && k < |s|
    ensures MovedIndex(k, from, to) < |s|
    ensures Move(s, from, to)[MovedIndex(k, from, to)] == s[k]
  {
    MoveShape(s, from, to);
  }

  /** A move is a permutation: the same elements with the same multiplicities. */
  lemma MovePermutes<T>(s: seq<T>, from: nat, to: nat)
    requires from < |s| && to < |s|
    ensures multiset(Move(s, from, to)) == multiset(s)
  {
  }

  /** Apart from the moved element, the order is untouched: taking it back
      out of the result gives the list with it taken out of the input. */
  lemma MoveKeepsOthersInOrder<T>(s: seq<T>, from: nat, to: nat)
    requires from < |s| && to < |s|
    ensures RemoveAt(Move(s, from, to), to) == RemoveAt(s, from)
  {
    var m := Move(s, from, to);
    var a := RemoveAt(m, to);
    var b := RemoveAt(s, from);
    assert |a| == |b|;
    forall k | 0 <= k < |a| ensures a[k] == b[k] {
      if k < to { assert a[k] == m[k]; } else { assert a[k] == m[k + 1]; }
    }
  }

  /** Dropping an element onto its own position changes nothing. */
  lemma MoveSame<T>(s: seq<T>, i: nat)
    requires i < |s|
    ensures Move(s, i, i) == s
  {
    MoveShape(s, i, i);
  }

  /** A move is undone by the move back. */
  lemma MoveBack<T>(s: seq<T>, from: nat, to: nat)
    requires from < |s| && to < |s|
    ensures Move(Move(s, from, to), to, from) == s
  {
    var m := Move(s, from, to);
    var b := Move(m, to, from);
    MoveShape(s, from, to);
    MoveShape(m, to, from);
    forall k | 0 <= k < |s| ensures b[k] == s[k] {
      if k == from {
        assert b[k] == m[to];
      } else if from < k <= to {
        assert b[k] == m[k - 1];
      } else if to <= k < from {
        assert b[k] == m[k + 1];
      } else {
        assert b[k] == m[k];
      }
    }
  }
}

=== FILE: text.dfy ===
/** The JavaScript string builtins the editor relies on: `trim`, `indexOf`,
    `replace` with a string pattern (first occurrence only) and `endsWith`. */
module Text {

  /** The characters `String.prototype.trim` strips: the WhiteSpace and
      LineTerminator code points of ECMA-262 (tab, vertical tab, form feed,
      no-break space, byte-order mark, the Zs space separators, line feed,
      carriage return, line and paragraph separators). */
  predicate IsSpace(c: char) {
    c == '\t' || c == '\n' || c == '\U{B}' || c == '\U{C}' || c == '\r' || c == ' '
    || c == '\U{A0}' || c == '\U{1680}' || ('\U{2000}' <= c <= '\U{200A}')
    || c == '\U{2028}' || c == '\U{2029}' || c == '\U{202F}' || c == '\U{205F}'
    || c == '\U{3000}' || c == '\U{FEFF}'
  }

  predicate AllSpace(s: string) {
    forall k :: 0 <= k < |s| ==> IsSpace(s[k])
  }

  /** No space at either end: what `trim` leaves behind. */
  predicate Trimmed(s: string) {
    s == [] || (!IsSpace(s[0]) && !IsSpace(s[|s| - 1]))
  }

  /** Drops the leading spaces. */
  function TrimStart(s: string): string {
    if s != [] && IsSpace(s[0]) then TrimStart(s[1..]) else s
  }

  /** Drops the trailing spaces. */
  function TrimEnd(s: string): string {
    if s != [] && IsSpace(s[|s| - 1]) then TrimEnd(s[..|s| - 1]) else s
  }

  /** `TrimStart` keeps the longest suffix that does not start with a space,
      and everything it drops is space. */
  lemma {:induction false} TrimStartShape(s: string)
    ensures |TrimStart(s)| <= |s| && TrimStart(s) == s[|s| - |TrimStart(s)|..]
    ensures AllSpace(s[..|s| - |TrimStart(s)|])
    ensures TrimStart(s) == [] || !IsSpace(TrimStart(s)[0])
  {
    if s != [] && IsSpace(s[0]) {
      TrimStartShape(s[1..]);
      var r := TrimStart(s[1..]);
      assert s[..|s| - |r|] == [s[0]] + s[1..][..|s| - 1 - |r|];
    }
  }

  /** `TrimEnd` keeps the longest prefix that does not end with a space,
      and everything it drops is space. */
  lemma {:induction false} TrimEndShape(s: string)
    ensures |TrimEnd(s)| <= |s| && TrimEnd(s) == s[..|TrimEnd(s)|]
    ensures AllSpace(s[|TrimEnd(s)|..])
    ensures TrimEnd(s) == [] || !IsSpace(TrimEnd(s)[|TrimEnd(s)| - 1])
  {
    if s != [] && IsSpace(s[|s| - 1]) {
      TrimEndShape(s[..|s| - 1]);
      var r := TrimEnd(s[..|s| - 1]);
      assert s[|r|..] == s[..|s| - 1][|r|..] + [s[|s| - 1]];
    }
  }

  /** `s.trim()`: nothing but spaces is removed, only at the two ends, and
      the result is empty exactly when `s` is all space. */
  function Trim(s: string): (r: string)
    ensures Trimmed(r)
    ensures |r| <= |s|
    ensures r == [] <==> AllSpace(s)
  {
    TrimEndOfTrimStart(s);
    TrimEnd(TrimStart(s))
  }

  lemma TrimEndOfTrimStart(s: string)
    ensures Trimmed(TrimEnd(TrimStart(s)))
    ensures |TrimEnd(TrimStart(s))| <= |s|
    ensures TrimEnd(TrimStart(s)) == [] <==> AllSpace(s)
  {
    var t := TrimStart(s);
    var r := TrimEnd(t);
    TrimStartShape(s);
    TrimEndShape(t);
    var n := |s| - |t|;
    if r == [] {
      // `t` is all space and does not start with one, so it is empty
      assert t[|r|..] == t;
      assert t == [];
      assert s[..n] == s;
    } else {
      assert r[0] == t[0] && !IsSpace(t[0]);
      assert s[n] == t[0];
    }
  }

  /** Trimming a string padded with spaces on both sides gives back the
      padded core, whenever the core has no space at its ends. */
  lemma {:induction false} TrimPadded(front: string, core: string, back: string)
    requires AllSpace(front) && AllSpace(back) && Trimmed(core)
    ensures Trim(front + core + back) == core
  {
    var s := front + core + back;
    if core == [] {
      assert AllSpace(s) by {
        forall k | 0 <= k < |s| ensures IsSpace(s[k]) {
          if k < |front| { assert s[k] == front[k]; } else { assert s[k] == back[k - |front|]; }
        }
      }
    } else {
      TrimStartPadded(front, core + back);
      assert front + core + back == front + (core + back);
      TrimEndPadded(core, back);
    }
  }

  lemma {:induction false} TrimStartPadded(front: string, rest: string)
    requires AllSpace(front) && (rest == [] || !IsSpace(rest[0]))
    ensures TrimStart(front + rest) == rest
  {
    if front != [] {
      assert (front + rest)[1..] == front[1..] + rest;
      assert AllSpace(front[1..]) by {
        forall k | 0 <= k < |front[1..]| ensures IsSpace(front[1..][k]) {
          assert front[1..][k] == front[k + 1];
        }
      }
      TrimStartPadded(front[1..], rest);
    } else {
      assert front + rest == rest;
    }
  }

  lemma {:induction false} TrimEndPadded(rest: string, back: string)
    requires AllSpace(back) && (rest == [] || !IsSpace(rest[|rest| - 1]))
    ensures TrimEnd(rest + back) == rest
  {
    if back != [] {
      var b := back[..|back| - 1];
      assert (rest + back)[..|rest + back| - 1] == rest + b;
      assert AllSpace(b) by {
        forall k | 0 <= k < |b| ensures IsSpace(b[k]) {
          assert b[k] == back[k];
        }
      }
      TrimEndPadded(rest, b);
    } else {
      assert rest + back == rest;
    }
  }

  /** A string with no space at its ends is its own trim. */
  lemma TrimOfTrimmed(s: string)
    requires Trimmed(s)
    ensures Trim(s) == s
  {
    TrimPadded([], s, []);
    assert [] + s + [] == s;
  }

  /** Trimming twice is trimming once. */
  lemma TrimIdempotent(s: string)
    ensures Trim(Trim(s)) == Trim(s)
  {
    TrimPadded([], Trim(s), []);
    assert [] + Trim(s) + [] == Trim(s);
  }

  /** `pat` sits in `s` at position `i`. */
  predicate OccursAt(s: string, pat: string, i: nat) {
    i + |pat| <= |s| && s[i..i + |pat|] == pat
  }

  ghost predicate Contains(s: string, pat: string) {
    exists i: nat :: OccursAt(s, pat, i)
  }

  /** `s.indexOf(pat, from)`: the first position at or after `from` where
      `pat` occurs, or -1 when there is none. */
  function IndexOfFrom(s: string, pat: string, from: nat): (r: int)
    requires from <= |s|
    ensures r == -1 || (from <= r && OccursAt(s, pat, r))
    ensures forall k: nat :: from <= k && (r == -1 || k < r) ==> !OccursAt(s, pat, k)
    decreases |s| - from
  {
    if OccursAt(s, pat, from) then from
    else if from == |s| then -1
    else IndexOfFrom(s, pat, from + 1)
  }

  function IndexOf(s: string, pat: string): (r: int)
    ensures r == -1 <==> !Contains(s, pat)
    ensures r == -1 || 0 <= r
    ensures 0 <= r ==> OccursAt(s, pat, r) && forall k: nat :: k < r ==> !OccursAt(s, pat, k)
  {
    IndexOfFrom(s, pat, 0)
  }

  /** `s.replace(pat, "")` with a string pattern: removes the first
      occurrence of `pat`, and only that one. */
  function RemoveFirst(s: string, pat: string): (r: string)
    ensures !Contains(s, pat) ==> r == s
    ensures Contains(s, pat) ==> |r| == |s| - |pat|
    ensures Contains(s, pat) ==>
      exists i: nat :: OccursAt(s, pat, i) && (forall k: nat :: k < i ==> !OccursAt(s, pat, k))
        && r == s[..i] + s[i + |pat|..]
  {
    var i := IndexOf(s, pat);
    if i < 0 then s else s[..i] + s[i + |pat|..]
  }

  /** `s.endsWith(suffix)`. */
  predicate EndsWith(s: string, suffix: string) {
    |suffix| <= |s| && s[|s| - |suffix|..] == suffix
  }

  lemma EndsWithAppended(s: string, suffix: string)
    ensures EndsWith(s + suffix, suffix)
  {
    assert (s + suffix)[|s|..] == suffix;
  }
}
